=== FILE: README.md ===
# Refrigeration plant telemetry: a Dafny model

This project models the computational core of a small refrigeration-plant
telemetry system and proves properties of that model:

- **the real vapour-compression cycle solver** (`simular_refrigerador`): four
  refrigerant states and the cycle's scalar figures (compressor work,
  evaporator heat, COP, evaporator-inlet quality, discharge temperature),
  obtained from a fixed chain of queries to an equation-of-state library and
  closed-form algebra (modules `Refrigerant`, `Cycle`);
- **the telemetry generator** (`generar_datos` and its helpers): the ambient
  temperature model, door-opening excursions, end-of-horizon condenser
  fouling, compressor-efficiency jitter, the state classifier, and the
  tick-by-room loop that solves, classifies and records every point of a
  seven-day hourly grid for the three cold rooms (modules `Settings`,
  `Environment`, `Degradation`, `Classifier`, `Generator`);
- **the pure parts of the dashboard bot**: the traffic light of a unit, the
  fleet view's alarm list, the cost view's arithmetic (weekly and daily spend,
  24-hour projection, deviation from the historical daily average, deviation
  bands, diagnosis, COP bands, critical units), the inline keyboards and the
  callback router with its `falla_<section>_<unit>` drill-down encoding
  (modules `Dashboard`, `Costs`, `Callbacks`, with `PyStr` modelling the
  Python string methods used);
- **the per-unit cost detail and its keyboard** (module `CostView`): the
  detail's unit names and the drill-down buttons below it fail on the same
  identifiers, so a detail that renders always gets its keyboard;
- **the plant's three rooms seen by the dashboard** (module `Plant`): each
  configured room identifier gets its drill-down label, its detail label and
  its product code in the critical list.

How the outside world enters the model:

- The equation-of-state library is a function-valued parameter
  `PropsSI = (Prop, Prop, real, Prop, real, string) -> Option<real>`. `None`
  stands for a query the library rejects, which raises in the source. Every
  property of the solver is proved for every such function.
- A Python exception becomes a `Failure` (`Result`) or a `None` (`Option`).
  This covers a rejected library query, a float division by zero, and an
  index past the end of a `split` result.
- Every random number is an explicit input. A `random.random()` value is a
  real `u` with `0 <= u < 1`, and `random.uniform(a, b)` is `a + (b - a) * u`.
  The Gaussian noise of each tick is a real input. The start instant, and the
  calendar that maps an instant to its hour and day of year, are inputs too
  (`Generator.Run`).
- The dashboard's tables (the latest row of each unit, today's per-unit
  summaries) are inputs as sequences of rows. The cost view's raw rows are
  `Costs.Muestra` values carrying their calendar day and instant in hours.

Real numbers are exact in the model, and the Python float arithmetic is not
modelled (see "Left out").

## Model

| member | source | states |
|---|---|---|
| Refrigerant.Kelvin | backend/motor_termodinamico.py:21-22 | Celsius-to-kelvin conversion: the result is above the input and converting back gives the input |
| Cycle.IsentropicCompression | backend/motor_termodinamico.py:28-40 | state 1 is saturated vapour at the interior temperature, the condensing pressure is the saturated-liquid pressure at ambient plus approach, and the ideal end point keeps state 1's entropy at that pressure |
| Cycle.RealOutletEnthalpy | backend/motor_termodinamico.py:42-44 | the ideal enthalpy rise is the efficiency times the real one; for an efficiency in (0, 1] the real outlet lies above the ideal one, strictly when the efficiency is below 1, and equals it at efficiency 1 |
| Cycle.CompressorWork | backend/motor_termodinamico.py:46-47 | work times efficiency is the mass flow times the ideal rise, and the work is positive for a positive flow, efficiency and ideal rise |
| Cycle.WorkScalesWithFlow | backend/motor_termodinamico.py:47 | the work in kW is linear in the mass flow, and it is zero for one non-zero flow exactly when it is zero for another |
| Cycle.CondenserAndThrottle | backend/motor_termodinamico.py:49-60 | state 3 is saturated liquid at the condensing pressure, P4 is the saturation pressure at the interior temperature, and the quality is the library's value at (P4, h3) |
| Cycle.ReportedProperties | backend/motor_termodinamico.py:76-89 | the state-2 temperature recomputed after packing is the reported discharge temperature, both being the library's temperature at (h2, P2) |
| Cycle.Assemble | backend/motor_termodinamico.py:62-85 | the condenser is isobaric and the throttle isenthalpic; the COP is the enthalpy-ratio form with the mass flow cancelled, COP times work is heat, and work plus heat is the condenser's rejected heat |
| Cycle.Solve | backend/motor_termodinamico.py:7-91 | a zero efficiency or a zero mass flow fails; a success has an isobaric condenser and isenthalpic throttle, states 1 and 4 at the interior temperature, discharge temperature equal to state 2's, work and heat in kW as mass flow times the state enthalpy differences over 1000, the energy balance, COP equal to heat over work, and an unclamped quality |
| Cycle.WorkZero | backend/motor_termodinamico.py:42-47 | for a non-zero efficiency the compressor work is zero exactly when the mass flow is zero or the ideal enthalpy rise is |
| Cycle.SolveSucceeds | backend/motor_termodinamico.py:28-66 | when the library answers every query, the solve succeeds exactly when the efficiency, the mass flow and the ideal enthalpy rise are all non-zero, which are the three divisors of the source |
| Cycle.ZeroDivisionOnlyAtZero | backend/motor_termodinamico.py:44-66 | a solve that fails on a division by zero had a zero efficiency, a zero mass flow or a zero ideal enthalpy rise, whatever the library answers |
| Cycle.StatesFromLibrary | backend/motor_termodinamico.py:28-89 | every pressure, temperature, entropy and quality of a solved cycle is the library's answer at the state the cycle fixes: states 1 and 4 at the saturated-vapour pressure of the interior temperature, state 2 resolved from its real enthalpy at the condensing pressure, state 3 saturated liquid at that pressure, and the quality read at state 4 |
| Cycle.CopIndependentOfMassFlow | backend/motor_termodinamico.py:44-66 | for two non-zero mass flows the solve succeeds for both or neither; the four states and the COP coincide and the work scales with the flow |
| Cycle.DischargeStateIsReal | backend/motor_termodinamico.py:39-44 | state 2 holds the real enthalpy, not the isentropic one: it relates to the ideal end point through the efficiency, equals it only at efficiency 1, and lies above it for efficiencies in (0, 1] |
| Cycle.WorkAntitoneInEfficiency | backend/motor_termodinamico.py:42-47 | for a non-negative real rise, a lower efficiency never gives a lower compressor work |
| Cycle.LowerEfficiencyNeverLowersWork | backend/motor_termodinamico.py:42-72 | two successful solves of one operating point: the one with the smaller efficiency reports at least the work of the other |
| Environment.SeasonalBase | scripts/generar_datos.py:41-46 | the seasonal base is 2.5 on the reference day, and lies between the winter and summer baselines exactly on days 0 to 344 |
| Environment.SeasonalBaseMonotone | scripts/generar_datos.py:44-46 | the seasonal base never falls as the day of year grows |
| Environment.Diurnal | scripts/generar_datos.py:48-49 | the daily swing is at most 4, reaches 4 only at 15:00, and lies in [-1, 4] over the hours of a day |
| Environment.DiurnalShape | scripts/generar_datos.py:48-49 | the swing is symmetric about 15:00, and over a day's hours its minimum is at midnight (-1), not at 06:00 (+1) |
| Environment.AmbientTemperature | scripts/generar_datos.py:36-54 | on days 0 to 344 the ambient temperature lies between the winter baseline minus 1 and the summer baseline plus 4, shifted by the noise |
| Environment.AmbientPeak | scripts/generar_datos.py:44-54 | for a fixed day and noise draw the ambient temperature is highest at 15:00, and only there |
| Environment.AmbientSeasonal | scripts/generar_datos.py:44-54 | for a fixed hour and noise draw a later day of the year is never colder |
| Environment.NoiseIsAdditive | scripts/generar_datos.py:51-54 | two noise draws at the same hour and day move the temperature by exactly their difference |
| Degradation.Uniform | scripts/generar_datos.py:65-67 | a unit draw maps into [a, b], and strictly below b when a < b |
| Degradation.AperturaPuerta | scripts/generar_datos.py:57-69 | below 0.05 the extra is in [3, 8); from 0.05 to below 0.20 it is in [1, 3); otherwise it is 0; it is 0 exactly when no opening happens |
| Degradation.FactorDegradacion | scripts/generar_datos.py:104-108 | the fouling factor is at least 1; over the seven-day grid it is 1.7 exactly on ticks 144 to 167 and 1 before |
| Degradation.FactorDegradacionMonotone | scripts/generar_datos.py:105-107 | fouling never decreases as the tick advances |
| Degradation.DeltaTCondensador | scripts/generar_datos.py:98-108 | the temperature difference is the sum of the base and the door extra, times the fouling factor; it is at least the base plus the extra, and within the grid it lies in [15, 23 * 1.7) |
| Degradation.DeltaTCondensadorMonotone | scripts/generar_datos.py:98-108 | for a fixed door extra, the temperature difference never falls as the horizon advances |
| Degradation.Eficiencia | scripts/generar_datos.py:110-113 | the efficiency is in [0.60, 0.85], and equals the baseline plus the jitter exactly when the jitter is in [-0.15, 0.10] |
| Degradation.JitterNeverClamped | scripts/generar_datos.py:111-113 | for the drawn jitter the clamp never acts, and the efficiency lies in [0.72, 0.77) |
| Classifier.Classify | scripts/generar_datos.py:128-133 | alarm exactly when the temperature difference exceeds 25 or the COP is below 2; warning exactly when not an alarm and the difference exceeds 20 or the COP is below 2.5; normal otherwise |
| Classifier.NameInjective | scripts/generar_datos.py:128-133 | the written label determines the state |
| Classifier.ClassifyMonotoneInDeltaT | scripts/generar_datos.py:128-133 | for a fixed COP, a larger temperature difference never lowers the severity |
| Classifier.ClassifyMonotoneInCop | scripts/generar_datos.py:128-133 | for a fixed temperature difference, a lower COP never lowers the severity |
| Generator.RegistroDe | scripts/generar_datos.py:96-151 | a record exists exactly when the solve succeeds; it carries its tick's instant and ambient temperature, the room's id, the door-and-fouling temperature difference and the clamped jittered efficiency it solved with, the solve's COP, discharge temperature, work, heat and quality, and a state that matches its own difference and COP; with unit draws it keeps the difference, efficiency and interior bounds |
| Generator.PerturbsSolverDefaults | scripts/generar_datos.py:98-122 | before the last day the generator's operating point is the solver's default efficiency and temperature difference plus the jitter and the door extra, and with no opening and a zero jitter it is the solver's default call |
| Generator.Collect | scripts/generar_datos.py:89-151 | the nested tick-by-room loop appends exactly the grid of outputs: tick after tick, rooms in order, failures dropped |
| Generator.GenerarDatos | scripts/generar_datos.py:83-151 | the run is the grid of records of all 168 ticks over the rooms, at most 168 times the number of rooms |
| Generator.GridBound | scripts/generar_datos.py:85-96 | the grid of n ticks over m rooms holds at most n * m outputs |
| Generator.TickOrigin | scripts/generar_datos.py:96-148 | an output of a tick was produced by one of the tick's rooms |
| Generator.TickContains | scripts/generar_datos.py:96-148 | every room's output at a tick is in the tick |
| Generator.GridOrigin | scripts/generar_datos.py:89-148 | an output of the grid was produced by some room at some tick of the grid |
| Generator.GridContains | scripts/generar_datos.py:89-148 | every room's output at every tick of the grid is in the grid |
| Generator.TickMembership | scripts/generar_datos.py:96-151 | an output belongs to a tick exactly when one of its rooms produced it |
| Generator.GridMembership | scripts/generar_datos.py:89-151 | an output belongs to the grid exactly when some room produced it at some tick: nothing is invented and only failures are dropped |
| Generator.GridOrdered | scripts/generar_datos.py:89-96 | when every output is keyed by its tick, the grid lists outputs in non-decreasing key order |
| Generator.TickComplete | scripts/generar_datos.py:96-148 | when no room fails at a tick, the tick lists one output per room, in room order |
| Generator.GridLength | scripts/generar_datos.py:85-87 | when nothing fails, the grid holds ticks times rooms outputs, the count the generator announces |
| Generator.GridComplete | scripts/generar_datos.py:89-148 | when nothing fails, the output of tick i and room k sits at index i * rooms + k |
| Generator.RegistroOrigin | scripts/generar_datos.py:89-148 | every record comes from some tick and room of the grid, lies in the horizon, and carries the ambient temperature of its instant's tick |
| Generator.RegistroInstante | scripts/generar_datos.py:89-94 | every record's instant lies in the horizon and its ambient temperature is that of its tick |
| Generator.RegistrosChronological | scripts/generar_datos.py:89-90 | the records are in chronological order |
| Generator.SameTickSameAmbient | scripts/generar_datos.py:94-96 | records with the same timestamp share one ambient temperature |
| Generator.RegistroAcotado | scripts/generar_datos.py:98-139 | with unit draws, every record of the grid has a temperature difference in [15, 23 * 1.7), an efficiency in [0.72, 0.77), an interior reading within half a degree of a configured room with its id, and a state consistent with its figures |
| Dashboard.Semaforo | scripts/bot_telegram.py:71-77 | red exactly for an alarm label or a COP below 2; yellow exactly for a warning label otherwise; green otherwise |
| Dashboard.SemaforoOfClassified | scripts/bot_telegram.py:71-77 | for a label the generator wrote, the light matches the state one-to-one with equal severity, so the COP test adds nothing |
| Dashboard.SemaforoMonotoneInCop | scripts/bot_telegram.py:71-77 | for a fixed label, a lower COP never gives a milder light |
| Dashboard.FleetLight | scripts/bot_telegram.py:313-319 | the fleet view's forced red changes nothing: the printed light is the semaphore, and it is red exactly for a flagged row |
| Dashboard.FleetAlarmsMembership | scripts/bot_telegram.py:306-319 | a unit is offered for drill-down exactly when one of its rows shows a red light |
| Dashboard.FleetAlarmsFilter | scripts/bot_telegram.py:301-318 | the drill-down list equals a front-to-back reference filter: the identifiers of the flagged rows, in row order |
| Dashboard.FleetAlarmsOrder | scripts/bot_telegram.py:301-318 | when every row is flagged, all of them are listed in row order; when none is, the list is empty |
| Costs.FechaHoy | scripts/bot_telegram.py:367-368 | today is the latest day present in the data |
| Costs.SegmentacionParticion | scripts/bot_telegram.py:370-393 | splitting at the latest day loses no row, and the weekly work is the historical work plus today's |
| Costs.HoyNoVacio | scripts/bot_telegram.py:368-391 | with any data, today's rows are never empty, so the all-zero branch for an empty today is unreachable |
| Costs.PromedioDiario | scripts/bot_telegram.py:381-388 | with no history the average is 0; otherwise the average times the number of historical days is the historical spend |
| Costs.DiasHistorico | scripts/bot_telegram.py:381-388 | the number of historical days is the number of distinct days among the historical rows, 0 exactly when there is none |
| Costs.HorasDatos | scripts/bot_telegram.py:396-399 | the hours of data are at least one, and are the span plus one for ordered instants |
| Costs.Proyeccion | scripts/bot_telegram.py:401-402 | the projection times the hours is 24 times the spend; it is non-negative for a non-negative spend and is the spend itself over 24 hours |
| Costs.Desviacion | scripts/bot_telegram.py:409-413 | the deviation is 0 without a positive average, else the deviation times the average is 100 times the excess |
| Costs.DesviacionUmbral | scripts/bot_telegram.py:409-413 | a deviation of at least (at most) t percent means a projection of at least (at most) (1 + t/100) times the average |
| Costs.DesviacionUmbrales | scripts/bot_telegram.py:442-462 | the view's thresholds read on the projection: +20% is 1.2 times the average, +10% is 1.1 times it, -15% is 0.85 times it |
| Costs.BandaDesviacion | scripts/bot_telegram.py:454-468 | critical exactly from 20, early alert exactly in [10, 20), savings exactly at -15 or below, normal exactly in (-15, 10) |
| Costs.BandaMonotone | scripts/bot_telegram.py:454-468 | a larger deviation never gives a milder band on the overspend side, and savings at a deviation imply savings below it |
| Costs.Diagnosticar | scripts/bot_telegram.py:476-510 | each diagnosis exactly on its condition; the monthly loss is 30 times the daily overspend, which is the projection minus the average; the critical list is passed through, with the partial-data note exactly for a negative deviation |
| Costs.DiagnosticoRefinaBanda | scripts/bot_telegram.py:476-510 | the diagnosis agrees with the band on critical and alert, reports savings or normal only in those bands, and never announces savings or normal while a unit is critical |
| Costs.BandaCopDiaria | scripts/bot_telegram.py:514-516 | optimal exactly from 4, nominal exactly in [3, 4), critical exactly below 3 |
| Costs.CostoEquipo | scripts/bot_telegram.py:539 | a unit's cost is its work at the tariff, non-negative for non-negative work |
| Costs.IdsDondeExtensional | scripts/bot_telegram.py:404-407 | two unit tests that agree on every summary select the same identifiers, in the same order |
| Costs.IdsDondeMembership | scripts/bot_telegram.py:404-407 | an identifier is selected exactly when one of its summaries passes the test |
| Costs.IdsDondeEnOrden | scripts/bot_telegram.py:541-544 | the selection equals a front-to-back reference filter: the identifiers of the passing summaries in summary order, as the loop appends them |
| Costs.IdsDondeCons | scripts/bot_telegram.py:404-407 | the first summary's identifier, when it passes, heads the selection, followed by the selection of the rest |
| Costs.HoraMin | scripts/bot_telegram.py:396 | the first instant of today's rows: at or below every row's instant, and held by one of them |
| Costs.HoraMax | scripts/bot_telegram.py:397 | the last instant of today's rows: at or above every row's instant, and held by one of them |
| Costs.CriticosMembership | scripts/bot_telegram.py:404-407 | a unit is critical exactly when one of its summaries has a mean COP below 3 |
| Costs.CriticosSonAlarmas | scripts/bot_telegram.py:542-544 | the units in the diagnosis's critical list are exactly the units offered for drill-down below the detail, in the same order |
| Costs.NombreCritico | scripts/bot_telegram.py:502-504 | an identifier without an underscore is shown as is; one with an underscore has a name exactly when it has a third `_`-separated field, and the name is that field |
| Costs.NombreCriticoDePlanta | scripts/bot_telegram.py:502-504 | the plant's identifiers `CAMARA_<nn>_<name>` show their name |
| Costs.NombreDetalle | scripts/bot_telegram.py:529-537 | the first product the id contains, in the order meat, dairy, vegetables, gives its fixed label; otherwise the name is the second and third `_`-separated fields joined by a space, and there is none exactly when the id has at most two fields |
| Costs.LineasCon | scripts/bot_telegram.py:527-546 | for any naming of units: one detail line per summary, in order, with the unit's name, its cost, its mean COP and a red light exactly below 3; nothing exactly when some unit has no name |
| Costs.DetalleUnidades | scripts/bot_telegram.py:527-546 | the per-unit detail: one line per summary with its detail name, cost, mean COP and light; nothing, so no view, exactly when some identifier has no detail name |
| Costs.InformeDe | scripts/bot_telegram.py:377-421 | the weekly spend is all work at the tariff and today's spend is today's work at it; the average and the day count are those of the historical rows; with no positive average the deviation is 0; the projection is shown exactly from 4 hours of data; with rows today, today's figures are those of today's rows and the average; without, every figure of today is 0 |
| Costs.FigurasHoy | scripts/bot_telegram.py:390-413 | today's spend is today's work at the tariff, the mean COP is the mean over today's rows, the hours are at least one and are the span of the instants plus one, the projection is the spend over the hours, and a positive average gives the percentage deviation of the projection from it |
| Costs.InformePromedio | scripts/bot_telegram.py:381-388 | the report's day count is the number of distinct historical days, and its average times that count is the historical spend, or 0 without history |
| Costs.InformeHoy | scripts/bot_telegram.py:390-402 | with rows today, the report's mean COP is their mean, its hours are the span of their instants plus one, and its projection is today's spend over those hours |
| Costs.InformeDesviacion | scripts/bot_telegram.py:404-413 | with rows today and a positive average, the report's deviation is the percentage by which the projection exceeds the average |
| Costs.Informar | scripts/bot_telegram.py:355-368 | there is no report exactly when there is no data; otherwise the report is split at the latest day |
| Costs.InformeGastoSemanal | scripts/bot_telegram.py:377-399 | with data, the hours are at least one and the weekly spend is the historical spend plus today's |
| Costs.UnSoloDia | scripts/bot_telegram.py:381-413 | on a single day of data the average, the number of historical days and the deviation are 0, so the band is normal |
| PyStr.Split | scripts/bot_telegram.py:773 | `str.split` with a limit: joining the parts back gives the string, at most limit + 1 parts, and no separator inside a part except the unsplit remainder |
| PyStr.Replace | scripts/bot_telegram.py:775 | `str.replace`: a string without the pattern is unchanged, and a replacement no longer than the pattern never lengthens the string |
| PyStr.ReplaceSplice | scripts/bot_telegram.py:775 | `str.replace` scans left to right: at the first occurrence of the pattern, the part before it is replaced on its own, the occurrence becomes the replacement, and the rest is replaced on its own |
| PyStr.ReplaceSelf | scripts/bot_telegram.py:775 | replacing a non-empty pattern by itself leaves the string unchanged |
| Callbacks.NombreVisual | scripts/bot_telegram.py:99-107 | the first product the id contains, in the order meat, dairy, vegetables, gives its fixed label; otherwise the name is the third `_`-separated field, and there is none exactly when the id has at most two fields |
| Callbacks.FilasCon | scripts/bot_telegram.py:96-112 | for any naming of units: one drill-down row per unit, in order, with the unit's name and its `falla_` callback; nothing exactly when some unit has no name |
| Callbacks.FilasFalla | scripts/bot_telegram.py:96-112 | one drill-down row per alarm unit, in order, with the unit's visual name and its `falla_` callback; nothing exactly when some visual name fails |
| Callbacks.BotonesConRefresh | scripts/bot_telegram.py:92-117 | the alarm rows, then the section's refresh button, then the menu button; nothing exactly when some visual name fails |
| Callbacks.BotonVolverSeccion | scripts/bot_telegram.py:125-139 | two rows: a back button carrying the section of origin, then the menu button |
| Callbacks.Route | scripts/bot_telegram.py:724-776 | a drill-down view exactly for strings starting `falla_`, decoded by the drill-down branch; no view exactly for strings that are neither fixed nor `falla_` |
| Callbacks.SplitFalla | scripts/bot_telegram.py:773 | splitting a drill-down string twice gives the prefix, the section and the whole unit id, underscores included |
| Callbacks.FallaRoundTrip | scripts/bot_telegram.py:771-776 | for a section without an underscore, routing the button's string opens the same unit from the same section |
| Callbacks.FallaTwoParts | scripts/bot_telegram.py:773-775 | a drill-down string with no second underscore opens the unit after the prefix, from the diagnosis |
| Callbacks.RefreshRoutesLikeSection | scripts/bot_telegram.py:756-766 | a section's refresh string opens the same view as the section's own string |
| Callbacks.DrillDownNavigation | scripts/bot_telegram.py:92-139 | in a section's keyboard every unit button opens that unit from that section, refresh reloads the section, the last button opens the menu, and the detail's back button returns to the section |
| Callbacks.MainMenuRoutes | scripts/bot_telegram.py:80-89 | every main-menu button opens its own, distinct view |
| Plant.RoomNamed | scripts/bot_telegram.py:99-107 | an identifier `CAMARA_<nn>_<product>` of a known product gets that product's label on its button and in the cost detail, and is listed in the critical list under its product code |
| Plant.CamaraCarnesNamed | scripts/generar_datos.py:29 | the first configured room gets the meat label on its button and in the cost detail, and the code `CARNES` |
| Plant.CamaraLacteosNamed | scripts/generar_datos.py:30 | the second configured room gets the dairy label on its button and in the cost detail, and the code `LACTEOS` |
| Plant.CamaraVerdurasNamed | scripts/generar_datos.py:31 | the third configured room gets the vegetables label on its button and in the cost detail, and the code `VERDURAS` |
| CostView.NombreDetalleVisual | scripts/bot_telegram.py:99-107 | the cost detail's unit name and the drill-down button's name exist for the same identifiers |
| CostView.DetalleConTeclado | scripts/bot_telegram.py:527-550 | when the per-unit detail renders, the keyboard of its red units renders too, with one drill-down row per red unit, then refresh, then the menu |

## Left out

- The equation-of-state library's internals are out of scope. Properties that hold only because of the real R134a equation of state are therefore not proved: h2 >= h1, s2 >= s1, x4 in [0, 1], and the COP ranges of particular operating points. Where such a fact matters, it appears as a hypothesis, as in `Cycle.LowerEfficiencyNeverLowersWork`.
- Units (pint): every quantity is a real in the source's units, and the `kW` conversion is a division by 1000.
- Float arithmetic and `round(x, n)`: the model computes exactly and records unrounded values.
- Python's Mersenne Twister and `random.gauss` are not modelled. Each (tick, room) pair gets its own draw record, and each tick gets its own noise value. The model does not follow the single global stream, in which the interior draw is consumed only after a successful solve.
- `datetime.now()`, `timetuple().tm_yday` and `strftime` are not modelled. A timestamp is an integer number of hours, and the calendar is an input.
- Generator.RegistroDe: the interior temperature lies in [set point - 0.5, set point + 0.5) because a unit draw is below 1. Python's `uniform` may also return the upper end.
- Costs.PromedioDiario: the pandas group-by-day mean is modelled as the historical spend divided by the number of distinct days. The model does not prove that this equals the mean of per-day sums.
- Costs.Informar: the per-unit summaries (`groupby("id_equipo")` mean and sum) and the fleet view's latest row per unit are inputs (`ResumenEquipo`, `FleetRow`), not computed from the rows.
- CSV writing and reading, the file-naming policy, the deletion of an existing file, and the discovery of the latest file are file I/O.
- All Telegram I/O is left out: message editing, deletion, the message texts, Markdown and emoji formatting, `query.answer()`, and the bot's start-up.
- The fleet view's mode icon and the display name made by `replace` only shape message text.
- `mostrar_tendencias` draws charts with matplotlib, which is not modelled.
- `mostrar_diagnostico`, `analizar_falla_equipo`, `mostrar_detalle_falla` and `mostrar_referencia_tecnica` are not part of this model. The router names the view each one opens, and that is all.
- The `es_refresh` argument is passed to the handlers but never read, so a view carries no refresh flag.
- `imprimir_resultados` and the script's interactive input block only print.
- `scripts/diagnostico_costos.py` is not part of this model.
- Parameter checks: the code validates no parameter. It raises only on a division by zero or when the library rejects a query, so the model has no other failure.

## Code and its comments

Where a comment in the code and the code itself disagree, the model follows the code:

- **Daily swing** (`scripts/generar_datos.py:48`). The comment puts the minimum at 06:00 and the maximum at 15:00. The formula peaks at 15:00, but over a day's hours its minimum is at midnight (-1), and 06:00 gives +1 (`Environment.DiurnalShape`).
- **Fouling** (`scripts/generar_datos.py:104`). The comment speaks of a progressive failure over the last two days. The factor is 1 on the day with exactly two days left, so only the last 24 ticks are inflated, by 1.7 (`Degradation.FactorDegradacion`).
- **Seasonal base** (`scripts/generar_datos.py:45`). The comment calls day 172 the summer maximum. Day 172 gives the midpoint 2.5, and the base keeps growing with the day and leaves the winter-to-summer range after day 344 (`Environment.SeasonalBase`).
- **Outlet entropy** (`backend/motor_termodinamico.py:49`). The comment says s2 exceeds s1. The code only queries it and checks nothing.
- **COP** (`backend/motor_termodinamico.py:66`). The COP is heat over work whatever their signs: its sign is the product of the signs of heat and work, and only a zero work raises.

## Observations

These follow from the proved contracts and point at code that never takes effect:

- **Efficiency clamp.** It never acts for the drawn jitter (`Degradation.JitterNeverClamped`).
- **Minimum of one hour.** `max(1, ...)` in the hours of data never binds for ordered instants (`Costs.HorasDatos`).
- **Empty-today branch.** The cost view's branch for an empty today is unreachable (`Costs.HoyNoVacio`).
- **Semaphore COP test.** The test `cop < 2.0` is redundant for records the generator labelled (`Dashboard.SemaforoOfClassified`).
- **Fleet red override.** The fleet view's override to red is redundant (`Dashboard.FleetLight`).
- **Visual-name fallback.** The fallback of the drill-down button raises for an identifier with fewer than three `_`-separated fields. The keyboard is then not built (`Callbacks.BotonesConRefresh`).
- **Detail-name fallback.** The cost detail's own fallback raises for the same identifiers, before the keyboard is reached, so the cost view is not shown at all (`Costs.DetalleUnidades`, `CostView.NombreDetalleVisual`).

=== FILE: callbacks.dfy ===
/** The bot's navigation: the inline keyboards it attaches to its views, the
    callback strings their buttons carry, and the router that maps a callback
    string back to a view. The drill-down callback `falla_<section>_<unit>`
    is decoded with `split("_", 2)`, so the section may not contain an
    underscore but the unit identifier may. */
module Callbacks {
  import opened Fallible
  import opened PyStr

  /** An inline button: its label and the callback string it sends. */
  datatype Button = Button(text: string, callbackData: string)

  /** A keyboard: rows of buttons. */
  type Keyboard = seq<seq<Button>>

  /** The views the router can open. */
  datatype View =
    | Menu
    | Estado
    | Costos
    | Tendencias
    | Diagnostico
    | Referencia
    | DetalleFalla(idEquipo: string, seccionOrigen: string)

  const MenuButton: Button := Button("🔙 Menu Principal", "menu")

  /** `generar_menu_principal`: one button per row for the five views. */
  const MenuPrincipal: Keyboard := [
    [Button("📊 Estado Actual", "estado")],
    [Button("💰 Costos y Eficiencia", "costos")],
    [Button("📈 Tendencias Térmicas", "tendencias")],
    [Button("🛠️ Diagnóstico Salud", "diagnostico")],
    [Button("📚 Ver Parámetros Ideales", "referencia")]
  ]

  /** The name shown for a unit on its drill-down button: a fixed label for
      the three known products, else the third `_`-separated field of the
      identifier, which raises when there is none. */
  function NombreVisual(id: string): (n: Option<string>)
    ensures Contains(id, "CARNES") ==> n == Some("🥩 Carnes")
    ensures !Contains(id, "CARNES") && Contains(id, "LACTEOS") ==> n == Some("🥛 Lácteos")
    ensures !Contains(id, "CARNES") && !Contains(id, "LACTEOS") && Contains(id, "VERDURAS") ==>
      n == Some("🥦 Verduras")
    ensures !Contains(id, "CARNES") && !Contains(id, "LACTEOS") && !Contains(id, "VERDURAS") ==>
      && (n.Some? <==> |Split(id, '_', -1)| > 2)
      && (n.Some? ==> n.value == Split(id, '_', -1)[2])
    ensures n.None? ==> |Split(id, '_', -1)| <= 2
  {
    if Contains(id, "CARNES") then Some("🥩 Carnes")
    else if Contains(id, "LACTEOS") then Some("🥛 Lácteos")
    else if Contains(id, "VERDURAS") then Some("🥦 Verduras")
    else
      var parts := Split(id, '_', -1);
      if |parts| > 2 then Some(parts[2]) else None
  }

  /** The drill-down callback string of unit `id` opened from `seccion`. */
  function FallaData(seccion: string, id: string): string
  {
    "falla_" + seccion + "_" + id
  }

  /** `generar_botones_con_refresh`: one drill-down row per alarm unit, in
      order, then a refresh row for the section, then the menu row; nothing
      when a unit's visual name cannot be formed. */
  function BotonesConRefresh(seccion: string, alarmas: seq<string>): (kb: Option<Keyboard>)
    ensures kb.Some? ==>
      && |kb.value| == |alarmas| + 2
      && (forall k :: 0 <= k < |kb.value| ==> |kb.value[k]| == 1)
      && (forall k :: 0 <= k < |alarmas| ==> kb.value[k][0].callbackData == FallaData(seccion, alarmas[k]))
      && kb.value[|alarmas|][0] == Button("🔄 Actualizar Datos", "refresh_" + seccion)
      && kb.value[|alarmas| + 1][0] == MenuButton
    ensures kb.None? <==> exists k :: 0 <= k < |alarmas| && NombreVisual(alarmas[k]).None?
  {
    var rows :- FilasFalla(seccion, alarmas);
    Some(rows + [[Button("🔄 Actualizar Datos", "refresh_" + seccion)], [MenuButton]])
  }

  /** The drill-down rows of `alarmas`, or nothing when a visual name fails. */
  function FilasFalla(seccion: string, alarmas: seq<string>): (rows: Option<Keyboard>)
    ensures rows.Some? ==>
      && |rows.value| == |alarmas|
      && forall k :: 0 <= k < |alarmas| ==>
           NombreVisual(alarmas[k]).Some? &&
           rows.value[k] == [Button("🔍 Analizar Falla: " + NombreVisual(alarmas[k]).value, FallaData(seccion, alarmas[k]))]
    ensures rows.None? <==> exists k :: 0 <= k < |alarmas| && NombreVisual(alarmas[k]).None?
  {
    FilasCon(seccion, alarmas, NombreVisual)
  }

  /** The loop behind `FilasFalla` for any naming of units: it appends one
      row per unit in order and stops with nothing at the first unit the
      naming rejects. */
  function FilasCon(seccion: string, alarmas: seq<string>, nombrar: string -> Option<string>): (rows: Option<Keyboard>)
    ensures rows.Some? ==>
      && |rows.value| == |alarmas|
      && forall k :: 0 <= k < |alarmas| ==>
           nombrar(alarmas[k]).Some? &&
           rows.value[k] == [Button("🔍 Analizar Falla: " + nombrar(alarmas[k]).value, FallaData(seccion, alarmas[k]))]
    ensures rows.None? <==> exists k :: 0 <= k < |alarmas| && nombrar(alarmas[k]).None?
  {
    if |alarmas| == 0 then Some([])
    else
      var init, id := alarmas[..|alarmas| - 1], alarmas[|alarmas| - 1];
      var prev := FilasCon(seccion, init, nombrar);
      assert forall k :: 0 <= k < |init| ==> init[k] == alarmas[k];
      if prev.None? then
        None
      else if nombrar(id).None? then
        None
      else
        var rows := prev.value + [[Button("🔍 Analizar Falla: " + nombrar(id).value, FallaData(seccion, id))]];
        assert forall k :: 0 <= k < |init| ==> rows[k] == prev.value[k];
        Some(rows)
  }

  /** `generar_boton_volver_seccion`: back to the section of origin, then the
      menu. */
  function BotonVolverSeccion(seccion: string): (kb: Keyboard)
    ensures |kb| == 2 && |kb[0]| == 1 && kb[0][0].callbackData == seccion && kb[1] == [MenuButton]
  {
    var nombre :=
      if seccion == "estado" then "📊 Estado Actual"
      else if seccion == "costos" then "💰 Costos y Eficiencia"
      else if seccion == "diagnostico" then "🛠️ Diagnóstico"
      else "Sección Anterior";
    [[Button("⬅️ Volver a " + nombre, seccion)], [MenuButton]]
  }

  /** The drill-down branch of the router: when `split("_", 2)` gives a third
      field, that unit from the second field's section; otherwise every
      `falla_` is removed from the string to get the unit, and the section
      defaults to the diagnosis. */
  function RouteFalla(data: string): View
  {
    var partes := Split(data, '_', 2);
    if |partes| > 2 then DetalleFalla(partes[2], partes[1])
    else DetalleFalla(Replace(data, "falla_", ""), "diagnostico")
  }

  /** `manejar_callback`: the view a callback string opens, or nothing when
      no branch matches. The fixed strings are checked first, in the source's
      order, and drill-down strings last. */
  function Route(data: string): (v: Option<View>)
    ensures v.Some? && v.value.DetalleFalla? <==> StartsWith(data, "falla_")
    ensures StartsWith(data, "falla_") ==> v == Some(RouteFalla(data))
    ensures v.None? <==> data !in Fijos && !StartsWith(data, "falla_")
  {
    FallaPrefix(data);
    if data == "menu" then Some(Menu)
    else if data == "estado" || data == "refresh_estado" then Some(Estado)
    else if data == "costos" || data == "refresh_costos" then Some(Costos)
    else if data == "tendencias" then Some(Tendencias)
    else if data == "diagnostico" || data == "refresh_diagnostico" then Some(Diagnostico)
    else if data == "referencia" then Some(Referencia)
    else if StartsWith(data, "falla_") then Some(RouteFalla(data))
    else None
  }

  /** A drill-down string starts with an `f`, which no fixed string does. */
  lemma FallaPrefix(data: string)
    ensures StartsWith(data, "falla_") ==> data[0] == 'f' && data !in Fijos
  {
    if StartsWith(data, "falla_") {
      assert data[0] == data[..6][0];
    }
  }

  /** The fixed callback strings the router knows. */
  const Fijos: set<string> := {
    "menu", "estado", "refresh_estado", "costos", "refresh_costos", "tendencias",
    "diagnostico", "refresh_diagnostico", "referencia"
  }

  /** Splitting `a_b` once, where `a` has no underscore, gives `a` and `b`
      whatever `b` holds. */
  lemma SplitOnce(a: string, b: string)
    requires '_' !in a
    ensures Split(a + "_" + b, '_', 1) == [a, b]
  {
    FindAfterPrefix(a, '_', b);
    var s := a + "_" + b;
    assert s[..|a|] == a;
    assert s[|a| + 1..] == b;
  }

  /** Splitting a drill-down string at its first two underscores gives the
      prefix, a section without an underscore and the whole unit
      identifier. */
  lemma SplitFalla(seccion: string, id: string)
    requires '_' !in seccion
    ensures Split(FallaData(seccion, id), '_', 2) == ["falla", seccion, id]
  {
    var data := FallaData(seccion, id);
    var rest := seccion + "_" + id;
    assert data == "falla" + "_" + rest;
    FindAfterPrefix("falla", '_', rest);
    assert data[..5] == "falla" && data[6..] == rest;
    SplitOnce(seccion, id);
  }

  /** The drill-down encoding round-trips: for a section without an
      underscore, routing the button's string opens the same unit from the
      same section, even when the unit identifier holds underscores. */
  lemma FallaRoundTrip(seccion: string, id: string)
    requires '_' !in seccion
    ensures Route(FallaData(seccion, id)) == Some(DetalleFalla(id, seccion))
  {
    var data := FallaData(seccion, id);
    SplitFalla(seccion, id);
    assert RouteFalla(data) == DetalleFalla(id, seccion);
    assert StartsWith(data, "falla_") by {
      assert data[..6] == "falla_";
    }
  }

  /** A drill-down string with no second underscore opens the unit named
      after the prefix, from the diagnosis. */
  lemma FallaTwoParts(x: string)
    requires '_' !in x
    ensures Route("falla_" + x) == Some(DetalleFalla(x, "diagnostico"))
  {
    var data := "falla_" + x;
    assert data == "falla" + "_" + x;
    FindAfterPrefix("falla", '_', x);
    assert data[..5] == "falla" && data[6..] == x;
    assert Split(data, '_', 2) == ["falla", x];
    assert StartsWith(data, "falla_") by {
      assert data[..6] == "falla_";
    }
    MissingCharNotContained(x, "falla_", '_');
    assert Replace(data, "falla_", "") == Replace(x, "falla_", "");
  }

  /** The sections that carry a drill-down keyboard, with their views. */
  function SeccionView(seccion: string): Option<View>
  {
    if seccion == "estado" then Some(Estado)
    else if seccion == "costos" then Some(Costos)
    else if seccion == "diagnostico" then Some(Diagnostico)
    else None
  }

  /** The refresh button of a section opens the same view as the section's
      own button. */
  lemma RefreshRoutesLikeSection(seccion: string)
    requires SeccionView(seccion).Some?
    ensures Route("refresh_" + seccion) == Route(seccion) == SeccionView(seccion)
  {
    var refresh := "refresh_" + seccion;
    if seccion == "estado" {
      FixedRoute(seccion, Estado);
      FixedRoute(refresh, Estado);
    } else if seccion == "costos" {
      FixedRoute(seccion, Costos);
      FixedRoute(refresh, Costos);
    } else {
      FixedRoute(seccion, Diagnostico);
      FixedRoute(refresh, Diagnostico);
    }
  }

  /** Navigation closes: in a section's drill-down keyboard, every unit button
      opens that unit's detail from that section, the detail's back button
      returns to the section, the refresh button reloads the section and the
      last button goes to the menu. */
  lemma DrillDownNavigation(seccion: string, alarmas: seq<string>, k: nat)
    requires SeccionView(seccion).Some?
    requires BotonesConRefresh(seccion, alarmas).Some?
    requires k < |alarmas| + 2
    ensures var b := BotonesConRefresh(seccion, alarmas).value[k][0];
      && (k < |alarmas| ==> Route(b.callbackData) == Some(DetalleFalla(alarmas[k], seccion)))
      && (k == |alarmas| ==> Route(b.callbackData) == SeccionView(seccion))
      && (k == |alarmas| + 1 ==> Route(b.callbackData) == Some(Menu))
    ensures Route(BotonVolverSeccion(seccion)[0][0].callbackData) == SeccionView(seccion)
  {
    RefreshRoutesLikeSection(seccion);
    if k < |alarmas| {
      assert '_' !in seccion;
      FallaRoundTrip(seccion, alarmas[k]);
    }
  }

  /** Every main-menu button opens its own, distinct view. */
  lemma MainMenuRoutes()
    ensures Route(MenuPrincipal[0][0].callbackData) == Some(Estado)
    ensures Route(MenuPrincipal[1][0].callbackData) == Some(Costos)
    ensures Route(MenuPrincipal[2][0].callbackData) == Some(Tendencias)
    ensures Route(MenuPrincipal[3][0].callbackData) == Some(Diagnostico)
    ensures Route(MenuPrincipal[4][0].callbackData) == Some(Referencia)
  {
    FixedRoute(MenuPrincipal[0][0].callbackData, Estado);
    FixedRoute(MenuPrincipal[1][0].callbackData, Costos);
    FixedRoute(MenuPrincipal[2][0].callbackData, Tendencias);
    FixedRoute(MenuPrincipal[3][0].callbackData, Diagnostico);
    FixedRoute(MenuPrincipal[4][0].callbackData, Referencia);
  }

  /** A section's own callback string, and the refresh string of a section
      with a drill-down keyboard, open that section. */
  lemma FixedRoute(data: string, v: View)
    requires
      || (data == "estado" && v == Estado)
      || (data == "refresh_estado" && v == Estado)
      || (data == "costos" && v == Costos)
      || (data == "refresh_costos" && v == Costos)
      || (data == "refresh_diagnostico" && v == Diagnostico)
      || (data == "tendencias" && v == Tendencias)
      || (data == "diagnostico" && v == Diagnostico)
      || (data == "referencia" && v == Referencia)
    ensures Route(data) == Some(v)
  {
  }
}

=== FILE: classifier.dfy ===
/** The operating-state label of a telemetry record, from the condenser
    temperature difference and the COP. */
module Classifier {

  datatype Estado = Normal | Advertencia | Alarma {

    /** The label written to the record. */
    function Name(): string {
      match this
      case Normal => "NORMAL"
      case Advertencia => "ADVERTENCIA"
      case Alarma => "ALARMA"
    }

    function Severity(): nat {
      match this
      case Normal => 0
      case Advertencia => 1
      case Alarma => 2
    }
  }

  /** Alarm conditions are checked before warning conditions, so a point that
      meets both is an alarm. */
  function Classify(deltaT: real, cop: real): (e: Estado)
    ensures e == Alarma <==> deltaT > 25.0 || cop < 2.0
    ensures e == Advertencia <==> deltaT <= 25.0 && cop >= 2.0 && (deltaT > 20.0 || cop < 2.5)
    ensures e == Normal <==> deltaT <= 20.0 && cop >= 2.5
  {
    if deltaT > 25.0 || cop < 2.0 then Alarma
    else if deltaT > 20.0 || cop < 2.5 then Advertencia
    else Normal
  }

  /** The labels are distinct, so the label determines the state. */
  lemma NameInjective(e1: Estado, e2: Estado)
    ensures e1.Name() == e2.Name() <==> e1 == e2
  {
    if e1 != e2 {
      assert e1.Name()[1] != e2.Name()[1] || |e1.Name()| != |e2.Name()|;
    }
  }

  /** For a fixed COP, a larger temperature difference never lowers the
      severity. */
  lemma ClassifyMonotoneInDeltaT(deltaT1: real, deltaT2: real, cop: real)
    requires deltaT1 <= deltaT2
    ensures Classify(deltaT1, cop).Severity() <= Classify(deltaT2, cop).Severity()
  {
  }

  /** For a fixed temperature difference, a lower COP never lowers the
      severity. */
  lemma ClassifyMonotoneInCop(deltaT: real, cop1: real, cop2: real)
    requires cop2 <= cop1
    ensures Classify(deltaT, cop1).Severity() <= Classify(deltaT, cop2).Severity()
  {
  }
}

=== FILE: costs.dfy ===
/** The cost view of the dashboard bot: weekly and daily spend from the
    compressor work at a flat tariff, the 24-hour projection of today's
    spend, its deviation from the historical daily average, the deviation
    bands and diagnosis, and the COP bands. */
module Costs {
  import opened Fallible
  import PyStr

  /** Tariff [CLP/kWh]. */
  const CostoKwhClp: real := 120.0

  /** One telemetry row as the cost view reads it: the calendar day, the
      instant in hours, the unit, the compressor work of the hour [kW, hence
      kWh per hourly row] and the COP. */
  datatype Muestra = Muestra(fecha: int, horaH: real, idEquipo: string, trabajoKW: real, cop: real)

  function SumTrabajo(xs: seq<Muestra>): real
  {
    if |xs| == 0 then 0.0 else SumTrabajo(xs[..|xs| - 1]) + xs[|xs| - 1].trabajoKW
  }

  function SumCop(xs: seq<Muestra>): real
  {
    if |xs| == 0 then 0.0 else SumCop(xs[..|xs| - 1]) + xs[|xs| - 1].cop
  }

  /** The most recent day of a non-empty data set. */
  function FechaHoy(xs: seq<Muestra>): (d: int)
    requires |xs| > 0
    ensures forall k :: 0 <= k < |xs| ==> xs[k].fecha <= d
    ensures exists k :: 0 <= k < |xs| && xs[k].fecha == d
  {
    if |xs| == 1 then xs[0].fecha
    else
      var d := FechaHoy(xs[..|xs| - 1]);
      assert forall k :: 0 <= k < |xs| - 1 ==> xs[..|xs| - 1][k] == xs[k];
      if xs[|xs| - 1].fecha > d then xs[|xs| - 1].fecha else d
  }

  /** The rows of days strictly before `hoy`, in order. */
  function Historico(xs: seq<Muestra>, hoy: int): (ys: seq<Muestra>)
    ensures |ys| <= |xs|
    ensures forall y :: y in ys ==> y in xs && y.fecha < hoy
  {
    if |xs| == 0 then []
    else
      var init := Historico(xs[..|xs| - 1], hoy);
      var last := xs[|xs| - 1];
      if last.fecha < hoy then init + [last] else init
  }

  /** The rows of day `hoy`, in order. */
  function DeHoy(xs: seq<Muestra>, hoy: int): (ys: seq<Muestra>)
    ensures |ys| <= |xs|
    ensures forall y :: y in ys ==> y in xs && y.fecha == hoy
  {
    if |xs| == 0 then []
    else
      var init := DeHoy(xs[..|xs| - 1], hoy);
      var last := xs[|xs| - 1];
      if last.fecha == hoy then init + [last] else init
  }

  /** Splitting at the latest day loses no row and no work: the weekly total
      is the historical total plus today's. */
  lemma {:induction false} SegmentacionParticion(xs: seq<Muestra>, hoy: int)
    requires forall k :: 0 <= k < |xs| ==> xs[k].fecha <= hoy
    ensures |Historico(xs, hoy)| + |DeHoy(xs, hoy)| == |xs|
    ensures SumTrabajo(Historico(xs, hoy)) + SumTrabajo(DeHoy(xs, hoy)) == SumTrabajo(xs)
  {
    if |xs| > 0 {
      var init := xs[..|xs| - 1];
      assert forall k :: 0 <= k < |init| ==> init[k] == xs[k];
      SegmentacionParticion(init, hoy);
      var h := Historico(init, hoy);
      var d := DeHoy(init, hoy);
      var last := xs[|xs| - 1];
      if last.fecha < hoy {
        assert (h + [last])[..|h + [last]| - 1] == h;
      } else {
        assert (d + [last])[..|d + [last]| - 1] == d;
      }
    }
  }

  /** The rows of the latest day are never empty, so the view's fallback for
      an empty today (all zeros) is unreachable once there is any data. */
  lemma {:induction false} HoyNoVacio(xs: seq<Muestra>)
    requires |xs| > 0
    ensures |DeHoy(xs, FechaHoy(xs))| > 0
  {
    var hoy := FechaHoy(xs);
    var k :| 0 <= k < |xs| && xs[k].fecha == hoy;
    DeHoyContiene(xs, hoy, k);
  }

  lemma {:induction false} DeHoyContiene(xs: seq<Muestra>, hoy: int, k: nat)
    requires k < |xs| && xs[k].fecha == hoy
    ensures xs[k] in DeHoy(xs, hoy)
  {
    if k < |xs| - 1 {
      DeHoyContiene(xs[..|xs| - 1], hoy, k);
    }
  }

  /** The days present in a set of rows. */
  function Fechas(xs: seq<Muestra>): set<int>
  {
    set k | 0 <= k < |xs| :: xs[k].fecha
  }

  /** `m` is the mean of `n` values summing to `suma`. */
  predicate EsMedia(m: real, suma: real, n: nat) {
    m * (n as real) == suma
  }

  /** `d` is the percentage by which `proyeccion` exceeds `promedio`. */
  predicate EsDesviacion(d: real, proyeccion: real, promedio: real) {
    d * promedio == (proyeccion - promedio) * 100.0
  }

  /** The historical daily average: the mean over historical days of each
      day's spend, that is the historical spend over the number of historical
      days, or 0 when there is no historical row. */
  function PromedioDiario(hist: seq<Muestra>): (p: real)
    ensures |hist| == 0 ==> p == 0.0
    ensures |hist| > 0 ==> EsMedia(p, SumTrabajo(hist) * CostoKwhClp, |Fechas(hist)|)
  {
    if |hist| == 0 then 0.0
    else
      assert hist[0].fecha in Fechas(hist);
      SumTrabajo(hist) * CostoKwhClp / (|Fechas(hist)| as real)
  }

  /** The number of historical days: the distinct days of the historical
      rows. */
  function DiasHistorico(hist: seq<Muestra>): (n: nat)
    ensures n == |Fechas(hist)|
    ensures n == 0 <==> |hist| == 0
  {
    if |hist| == 0 then 0
    else
      assert hist[0].fecha in Fechas(hist);
      |Fechas(hist)|
  }

  /** Hours covered by today's rows: the span between the first and the last
      instant plus one, at least one. */
  function HorasDatos(inicio: real, fin: real): (h: real)
    ensures h >= 1.0
    ensures inicio <= fin ==> h == fin - inicio + 1.0
  {
    if 1.0 >= fin - inicio + 1.0 then 1.0 else fin - inicio + 1.0
  }

  /** The 24-hour projection of `gasto` spent over `horas` hours. */
  function Proyeccion(gasto: real, horas: real): (p: real)
    requires horas >= 1.0
    ensures p * horas == gasto * 24.0
    ensures gasto >= 0.0 ==> p >= 0.0
    ensures horas == 24.0 ==> p == gasto
  {
    gasto / horas * 24.0
  }

  /** Percentage deviation of the projection from the historical average, or
      0 when the average is not positive. */
  function Desviacion(proyeccion: real, promedio: real): (d: real)
    ensures promedio <= 0.0 ==> d == 0.0
    ensures promedio > 0.0 ==> EsDesviacion(d, proyeccion, promedio)
  {
    if promedio > 0.0 then (proyeccion - promedio) / promedio * 100.0 else 0.0
  }

  /** Multiplying by a positive factor keeps the order, both ways. */
  lemma ScalePreservesOrder(a: real, b: real, p: real)
    requires p > 0.0
    ensures a <= b <==> a * p <= b * p
  {
    assert b * p - a * p == (b - a) * p;
    if a > b {
      assert (a - b) * p > 0.0;
    }
  }

  /** A deviation threshold of `t` percent is the projection threshold
      `(1 + t / 100)` times the average. */
  lemma DesviacionUmbral(proyeccion: real, promedio: real, t: real)
    requires promedio > 0.0
    ensures Desviacion(proyeccion, promedio) >= t <==> proyeccion >= (1.0 + t / 100.0) * promedio
    ensures Desviacion(proyeccion, promedio) <= t <==> proyeccion <= (1.0 + t / 100.0) * promedio
  {
    var d := Desviacion(proyeccion, promedio);
    var q := (1.0 + t / 100.0) * promedio;
    assert d * promedio == (proyeccion - promedio) * 100.0;
    assert t * promedio == (q - promedio) * 100.0;
    ScalePreservesOrder(t, d, promedio);
    ScalePreservesOrder(d, t, promedio);
  }

  /** The deviation thresholds of the view read as thresholds on the
      projection: at least 20% over the average means a projection of at
      least 1.2 times it, at least 10% over means at least 1.1 times it, and
      at least 15% under means at most 0.85 times it. */
  lemma DesviacionUmbrales(proyeccion: real, promedio: real)
    requires promedio > 0.0
    ensures Desviacion(proyeccion, promedio) >= 20.0 <==> proyeccion >= 1.2 * promedio
    ensures Desviacion(proyeccion, promedio) >= 10.0 <==> proyeccion >= 1.1 * promedio
    ensures Desviacion(proyeccion, promedio) <= -15.0 <==> proyeccion <= 0.85 * promedio
  {
    DesviacionUmbral(proyeccion, promedio, 20.0);
    DesviacionUmbral(proyeccion, promedio, 10.0);
    DesviacionUmbral(proyeccion, promedio, -15.0);
  }

  /** The band of a deviation, checked from the top. */
  datatype Banda = FallaCritica | AlertaTemprana | AhorroExtraordinario | Normal

  function BandaDesviacion(d: real): (b: Banda)
    ensures b == FallaCritica <==> d >= 20.0
    ensures b == AlertaTemprana <==> 10.0 <= d < 20.0
    ensures b == AhorroExtraordinario <==> d <= -15.0
    ensures b == Normal <==> -15.0 < d < 10.0
  {
    if d >= 20.0 then FallaCritica
    else if d >= 10.0 then AlertaTemprana
    else if d <= -15.0 then AhorroExtraordinario
    else Normal
  }

  /** A larger deviation never gives a milder band on the overspend side:
      once critical, always critical; once alerting, never normal. */
  lemma BandaMonotone(d1: real, d2: real)
    requires d1 <= d2
    ensures BandaDesviacion(d1) == FallaCritica ==> BandaDesviacion(d2) == FallaCritica
    ensures BandaDesviacion(d1) == AlertaTemprana ==> BandaDesviacion(d2) in {AlertaTemprana, FallaCritica}
    ensures BandaDesviacion(d2) == AhorroExtraordinario ==> BandaDesviacion(d1) == AhorroExtraordinario
  {
  }

  /** The diagnosis block of the view. */
  datatype Diagnostico =
    | DxFallaCritica(sobrecostoDiario: real, perdidaMensual: real)
    | DxAlertaTemprana(sobrecostoDiario: real)
    | DxAhorro
    | DxEquiposCriticos(equipos: seq<string>, notaParcial: bool)
    | DxNormal

  /** The diagnosis for deviation `d`, projection and historical average, and
      the units whose mean COP today is critical. */
  function Diagnosticar(d: real, proyeccion: real, promedio: real, criticos: seq<string>): (dx: Diagnostico)
    ensures dx.DxFallaCritica? <==> d >= 20.0
    ensures dx.DxAlertaTemprana? <==> 10.0 <= d < 20.0
    ensures dx.DxAhorro? <==> d <= -15.0 && |criticos| == 0
    ensures dx.DxEquiposCriticos? <==> d < 10.0 && |criticos| > 0
    ensures dx.DxNormal? <==> -15.0 < d < 10.0 && |criticos| == 0
    ensures dx.DxFallaCritica? ==> dx.perdidaMensual == 30.0 * dx.sobrecostoDiario
    ensures dx.DxFallaCritica? || dx.DxAlertaTemprana? ==> dx.sobrecostoDiario == proyeccion - promedio
    ensures dx.DxEquiposCriticos? ==> dx.equipos == criticos && (dx.notaParcial <==> d < 0.0)
  {
    if d >= 20.0 then
      var s := proyeccion - promedio;
      DxFallaCritica(s, s * 30.0)
    else if d >= 10.0 then DxAlertaTemprana(proyeccion - promedio)
    else if d <= -15.0 && |criticos| == 0 then DxAhorro
    else if |criticos| > 0 then DxEquiposCriticos(criticos, d < 0.0)
    else DxNormal
  }

  /** The diagnosis refines the deviation band: it differs from it only by
      reporting critical units where the band would say savings or normal,
      and savings are never announced while a unit is critical. */
  lemma DiagnosticoRefinaBanda(d: real, proyeccion: real, promedio: real, criticos: seq<string>)
    ensures var dx := Diagnosticar(d, proyeccion, promedio, criticos);
      && (BandaDesviacion(d) == FallaCritica <==> dx.DxFallaCritica?)
      && (BandaDesviacion(d) == AlertaTemprana <==> dx.DxAlertaTemprana?)
      && (dx.DxAhorro? ==> BandaDesviacion(d) == AhorroExtraordinario)
      && (dx.DxNormal? ==> BandaDesviacion(d) == Normal)
      && (|criticos| > 0 ==> !dx.DxAhorro? && !dx.DxNormal?)
  {
  }

  /** The band of today's mean COP. */
  datatype BandaCop = RendimientoOptimo | EficienciaNominal | ConsumoCritico

  function BandaCopDiaria(cop: real): (b: BandaCop)
    ensures b == RendimientoOptimo <==> cop >= 4.0
    ensures b == EficienciaNominal <==> 3.0 <= cop < 4.0
    ensures b == ConsumoCritico <==> cop < 3.0
  {
    if cop >= 4.0 then RendimientoOptimo
    else if cop >= 3.0 then EficienciaNominal
    else ConsumoCritico
  }

  /** The per-unit COP limit below which a unit is critical. */
  const CopUnidadCritico: real := 3.0

  /** Today's aggregate of one unit: mean COP and total work. */
  datatype ResumenEquipo = ResumenEquipo(idEquipo: string, copMedio: real, trabajoKW: real)

  function CostoEquipo(r: ResumenEquipo): (c: real)
    ensures r.trabajoKW >= 0.0 ==> c >= 0.0
    ensures c / CostoKwhClp == r.trabajoKW
  {
    r.trabajoKW * CostoKwhClp
  }

  /** The identifiers of the summaries that satisfy `p`, in summary order. */
  function IdsDonde(rs: seq<ResumenEquipo>, p: ResumenEquipo -> bool): (ids: seq<string>)
    ensures |ids| <= |rs|
  {
    if |rs| == 0 then []
    else
      var init := IdsDonde(rs[..|rs| - 1], p);
      var last := rs[|rs| - 1];
      if p(last) then init + [last.idEquipo] else init
  }

  /** A reference selection, front to back: the first summary's identifier
      when it passes, then the selection of the rest. */
  function IdsFiltrados(rs: seq<ResumenEquipo>, p: ResumenEquipo -> bool): seq<string>
    decreases |rs|
  {
    if |rs| == 0 then []
    else (if p(rs[0]) then [rs[0].idEquipo] else []) + IdsFiltrados(rs[1..], p)
  }

  /** Appending a summary to the reference selection appends its identifier
      when it passes. */
  lemma {:induction false} IdsFiltradosSnoc(rs: seq<ResumenEquipo>, r: ResumenEquipo, p: ResumenEquipo -> bool)
    ensures IdsFiltrados(rs + [r], p) == IdsFiltrados(rs, p) + (if p(r) then [r.idEquipo] else [])
    decreases |rs|
  {
    if |rs| == 0 {
      assert rs + [r] == [r];
      assert [r][1..] == [];
    } else {
      var head := if p(rs[0]) then [rs[0].idEquipo] else [];
      assert (rs + [r])[0] == rs[0];
      assert (rs + [r])[1..] == rs[1..] + [r];
      assert IdsFiltrados(rs + [r], p) == head + IdsFiltrados(rs[1..] + [r], p);
      IdsFiltradosSnoc(rs[1..], r, p);
    }
  }

  /** The selection keeps the summaries' order: it is exactly the reference
      selection, nothing reordered, added or dropped. */
  lemma {:induction false} IdsDondeEnOrden(rs: seq<ResumenEquipo>, p: ResumenEquipo -> bool)
    ensures IdsDonde(rs, p) == IdsFiltrados(rs, p)
    decreases |rs|
  {
    if |rs| > 0 {
      var init := rs[..|rs| - 1];
      IdsDondeEnOrden(init, p);
      assert init + [rs[|rs| - 1]] == rs;
      IdsFiltradosSnoc(init, rs[|rs| - 1], p);
    }
  }

  /** The first summary's identifier, when it passes, heads the selection. */
  lemma IdsDondeCons(rs: seq<ResumenEquipo>, p: ResumenEquipo -> bool)
    requires |rs| > 0
    ensures IdsDonde(rs, p) == (if p(rs[0]) then [rs[0].idEquipo] else []) + IdsDonde(rs[1..], p)
  {
    IdsDondeEnOrden(rs, p);
    IdsDondeEnOrden(rs[1..], p);
  }

  /** The test of the projection block: a mean COP below 3. */
  predicate EsCritico(r: ResumenEquipo) {
    r.copMedio < CopUnidadCritico
  }

  /** The test of the per-unit detail: not a green light, which needs a mean
      COP of at least 3. */
  predicate UnidadRoja(r: ResumenEquipo) {
    !(r.copMedio >= CopUnidadCritico)
  }

  /** The critical units of the projection block, in summary order. */
  function Criticos(rs: seq<ResumenEquipo>): seq<string>
  {
    IdsDonde(rs, EsCritico)
  }

  /** The drill-down list of the per-unit detail, in summary order. */
  function AlarmasDetalle(rs: seq<ResumenEquipo>): seq<string>
  {
    IdsDonde(rs, UnidadRoja)
  }

  /** Two tests that agree on every summary select the same identifiers. */
  lemma {:induction false} IdsDondeExtensional(rs: seq<ResumenEquipo>, p: ResumenEquipo -> bool, q: ResumenEquipo -> bool)
    requires forall k :: 0 <= k < |rs| ==> p(rs[k]) == q(rs[k])
    ensures IdsDonde(rs, p) == IdsDonde(rs, q)
  {
    if |rs| > 0 {
      var init := rs[..|rs| - 1];
      assert forall k :: 0 <= k < |init| ==> init[k] == rs[k];
      IdsDondeExtensional(init, p, q);
    }
  }

  /** The units listed as critical in the diagnosis are exactly the units
      offered for drill-down below the detail, in the same order. */
  lemma CriticosSonAlarmas(rs: seq<ResumenEquipo>)
    ensures Criticos(rs) == AlarmasDetalle(rs)
  {
    IdsDondeExtensional(rs, EsCritico, UnidadRoja);
  }

  /** An identifier is selected exactly when one of its summaries passes the
      test. */
  lemma {:induction false} IdsDondeMembership(rs: seq<ResumenEquipo>, p: ResumenEquipo -> bool, id: string)
    ensures id in IdsDonde(rs, p) <==> exists k :: 0 <= k < |rs| && rs[k].idEquipo == id && p(rs[k])
  {
    if |rs| > 0 {
      var init := rs[..|rs| - 1];
      IdsDondeMembership(init, p, id);
      if exists k :: 0 <= k < |init| && init[k].idEquipo == id && p(init[k]) {
        var k :| 0 <= k < |init| && init[k].idEquipo == id && p(init[k]);
        assert rs[k] == init[k];
      }
      if exists k :: 0 <= k < |rs| && rs[k].idEquipo == id && p(rs[k]) {
        var k :| 0 <= k < |rs| && rs[k].idEquipo == id && p(rs[k]);
        if k < |rs| - 1 {
          assert init[k] == rs[k];
        }
      }
    }
  }

  /** A unit is critical exactly when one of its summaries has a mean COP
      below 3. */
  lemma CriticosMembership(rs: seq<ResumenEquipo>, id: string)
    ensures id in Criticos(rs) <==>
      exists k :: 0 <= k < |rs| && rs[k].idEquipo == id && rs[k].copMedio < CopUnidadCritico
  {
    IdsDondeMembership(rs, EsCritico, id);
  }

  /** The name shown for a critical unit in the diagnosis: the third
      `_`-separated field when the identifier has an underscore, else the
      identifier. An identifier with exactly one underscore has no third
      field and the lookup raises. */
  function NombreCritico(id: string): (n: Option<string>)
    ensures '_' !in id ==> n == Some(id)
    ensures '_' in id ==> (n.Some? <==> |PyStr.Split(id, '_', -1)| > 2)
    ensures '_' in id && n.Some? ==> n.value == PyStr.Split(id, '_', -1)[2]
  {
    if '_' in id then
      var parts := PyStr.Split(id, '_', -1);
      if |parts| > 2 then Some(parts[2]) else None
    else Some(id)
  }

  /** The plant's identifiers `CAMARA_<nn>_<name>` show their name. */
  lemma NombreCriticoDePlanta(nn: string, name: string)
    requires '_' !in nn && '_' !in name
    ensures NombreCritico("CAMARA_" + nn + "_" + name) == Some(name)
  {
    var id := "CAMARA_" + nn + "_" + name;
    var parts := ["CAMARA", nn, name];
    assert parts[1..] == [nn, name] && parts[1..][1..] == [name];
    assert PyStr.Join([name], '_') == name;
    assert PyStr.Join([nn, name], '_') == nn + "_" + name;
    assert id == PyStr.Join(parts, '_');
    PyStr.SplitJoin(["CAMARA", nn, name], '_');
    assert id[6] == '_';
  }

  /** The name of a unit in the per-unit detail: a fixed label for the three
      products, checked in the order meat, dairy, vegetables, else the second
      and third `_`-separated fields joined by a space. An identifier with
      fewer than three fields has no third field and the lookup raises,
      which aborts the view. */
  function NombreDetalle(id: string): (n: Option<string>)
    ensures PyStr.Contains(id, "CARNES") ==> n == Some("🥩 Carnes")
    ensures !PyStr.Contains(id, "CARNES") && PyStr.Contains(id, "LACTEOS") ==> n == Some("🥛 Lácteos")
    ensures !PyStr.Contains(id, "CARNES") && !PyStr.Contains(id, "LACTEOS") && PyStr.Contains(id, "VERDURAS") ==>
      n == Some("🥦 Verduras")
    ensures !PyStr.Contains(id, "CARNES") && !PyStr.Contains(id, "LACTEOS") && !PyStr.Contains(id, "VERDURAS") ==>
      && (n.Some? <==> |PyStr.Split(id, '_', -1)| > 2)
      && (n.Some? ==> n.value == PyStr.Split(id, '_', -1)[1] + " " + PyStr.Split(id, '_', -1)[2])
  {
    if PyStr.Contains(id, "CARNES") then Some("🥩 Carnes")
    else if PyStr.Contains(id, "LACTEOS") then Some("🥛 Lácteos")
    else if PyStr.Contains(id, "VERDURAS") then Some("🥦 Verduras")
    else
      var parts := PyStr.Split(id, '_', -1);
      if |parts| > 2 then Some(parts[1] + " " + parts[2]) else None
  }

  /** One line of the per-unit detail: the unit's name, its cost, its mean
      COP and whether its light is red. */
  datatype LineaDetalle = LineaDetalle(nombre: string, costo: real, cop: real, roja: bool)

  /** The detail loop for any naming of units: one line per summary, in
      order, or nothing from the first unit the naming rejects. */
  function LineasCon(rs: seq<ResumenEquipo>, nombrar: string -> Option<string>): (ls: Option<seq<LineaDetalle>>)
    ensures ls.Some? ==>
      && |ls.value| == |rs|
      && forall k :: 0 <= k < |rs| ==>
           nombrar(rs[k].idEquipo).Some? &&
           ls.value[k] == LineaDetalle(nombrar(rs[k].idEquipo).value, CostoEquipo(rs[k]), rs[k].copMedio, UnidadRoja(rs[k]))
    ensures ls.None? <==> exists k :: 0 <= k < |rs| && nombrar(rs[k].idEquipo).None?
  {
    if |rs| == 0 then Some([])
    else
      var init, last := rs[..|rs| - 1], rs[|rs| - 1];
      var prev := LineasCon(init, nombrar);
      assert forall k :: 0 <= k < |init| ==> init[k] == rs[k];
      if prev.None? then
        None
      else if nombrar(last.idEquipo).None? then
        None
      else
        var ls := prev.value + [LineaDetalle(nombrar(last.idEquipo).value, CostoEquipo(last), last.copMedio, UnidadRoja(last))];
        assert forall k :: 0 <= k < |init| ==> ls[k] == prev.value[k];
        Some(ls)
  }

  /** `Detalle por Unidad`: the lines of today's summaries, or nothing when a
      unit's detail name cannot be formed. */
  function DetalleUnidades(rs: seq<ResumenEquipo>): (ls: Option<seq<LineaDetalle>>)
    ensures ls.Some? ==>
      && |ls.value| == |rs|
      && forall k :: 0 <= k < |rs| ==>
           NombreDetalle(rs[k].idEquipo).Some? &&
           ls.value[k] == LineaDetalle(NombreDetalle(rs[k].idEquipo).value, CostoEquipo(rs[k]), rs[k].copMedio, UnidadRoja(rs[k]))
    ensures ls.None? <==> exists k :: 0 <= k < |rs| && NombreDetalle(rs[k].idEquipo).None?
  {
    LineasCon(rs, NombreDetalle)
  }

  /** Everything the cost view computes from a non-empty data set. */
  datatype Informe = Informe(
    gastoSemanal: real,
    promedioDiario: real,
    diasHistorico: nat,
    gastoHoy: real,
    copPromedioHoy: real,
    horasDatos: real,
    proyeccion: real,
    desviacion: real,
    muestraProyeccion: bool)

  /** The first instant of a non-empty set of rows. */
  function HoraMin(xs: seq<Muestra>): (h: real)
    requires |xs| > 0
    ensures forall k :: 0 <= k < |xs| ==> h <= xs[k].horaH
    ensures exists k :: 0 <= k < |xs| && xs[k].horaH == h
  {
    if |xs| == 1 then xs[0].horaH
    else
      var h := HoraMin(xs[..|xs| - 1]);
      assert forall k :: 0 <= k < |xs| - 1 ==> xs[..|xs| - 1][k] == xs[k];
      if xs[|xs| - 1].horaH < h then xs[|xs| - 1].horaH else h
  }

  /** The last instant of a non-empty set of rows. */
  function HoraMax(xs: seq<Muestra>): (h: real)
    requires |xs| > 0
    ensures forall k :: 0 <= k < |xs| ==> xs[k].horaH <= h
    ensures exists k :: 0 <= k < |xs| && xs[k].horaH == h
  {
    if |xs| == 1 then xs[0].horaH
    else
      var h := HoraMax(xs[..|xs| - 1]);
      assert forall k :: 0 <= k < |xs| - 1 ==> xs[..|xs| - 1][k] == xs[k];
      if xs[|xs| - 1].horaH > h then xs[|xs| - 1].horaH else h
  }

  /** Today's figures from today's rows and the historical average. */
  function FigurasHoy(dh: seq<Muestra>, promedio: real): (f: (real, real, real, real, real))
    requires |dh| > 0
    ensures f.0 == SumTrabajo(dh) * CostoKwhClp
    ensures EsMedia(f.1, SumCop(dh), |dh|)
    ensures f.2 == HorasDatos(HoraMin(dh), HoraMax(dh))
    ensures f.2 >= 1.0 && f.3 == Proyeccion(f.0, f.2)
    ensures promedio <= 0.0 ==> f.4 == 0.0
    ensures promedio > 0.0 ==> EsDesviacion(f.4, f.3, promedio)
  {
    var gasto := SumTrabajo(dh) * CostoKwhClp;
    var horas := HorasDatos(HoraMin(dh), HoraMax(dh));
    var proy := Proyeccion(gasto, horas);
    (gasto, SumCop(dh) / (|dh| as real), horas, proy, Desviacion(proy, promedio))
  }

  /** The cost view's figures for the rows `xs` split at day `hoy`. */
  function InformeDe(xs: seq<Muestra>, hoy: int): (inf: Informe)
    ensures inf.gastoSemanal == SumTrabajo(xs) * CostoKwhClp
    ensures inf.gastoHoy == SumTrabajo(DeHoy(xs, hoy)) * CostoKwhClp
    // the historical average and day count are those of the historical rows
    ensures inf.diasHistorico == DiasHistorico(Historico(xs, hoy))
    ensures inf.promedioDiario == PromedioDiario(Historico(xs, hoy))
    ensures inf.promedioDiario <= 0.0 ==> inf.desviacion == 0.0
    ensures inf.muestraProyeccion <==> inf.horasDatos >= 4.0
    // today's mean COP, hours of data, projection and deviation
    ensures |DeHoy(xs, hoy)| > 0 ==>
      (inf.gastoHoy, inf.copPromedioHoy, inf.horasDatos, inf.proyeccion, inf.desviacion)
      == FigurasHoy(DeHoy(xs, hoy), inf.promedioDiario)
    // without rows today every figure of today is 0 and nothing is projected
    ensures |DeHoy(xs, hoy)| == 0 ==>
      && inf.gastoHoy == 0.0 && inf.copPromedioHoy == 0.0 && inf.horasDatos == 0.0
      && inf.proyeccion == 0.0 && inf.desviacion == 0.0 && !inf.muestraProyeccion
  {
    var hist := Historico(xs, hoy);
    var dh := DeHoy(xs, hoy);
    var promedio := PromedioDiario(hist);
    var dias := DiasHistorico(hist);
    if |dh| == 0 then
      assert SumTrabajo(dh) == 0.0;
      Informe(SumTrabajo(xs) * CostoKwhClp, promedio, dias, 0.0, 0.0, 0.0, 0.0, 0.0, false)
    else
      var f := FigurasHoy(dh, promedio);
      Informe(SumTrabajo(xs) * CostoKwhClp, promedio, dias, f.0, f.1, f.2, f.3, f.4, f.2 >= 4.0)
  }

  /** The historical average times the number of distinct historical days
      is the historical spend. */
  lemma InformePromedio(xs: seq<Muestra>, hoy: int)
    ensures var inf := InformeDe(xs, hoy);
      && inf.diasHistorico == |Fechas(Historico(xs, hoy))|
      && (|Historico(xs, hoy)| == 0 ==> inf.promedioDiario == 0.0)
      && (|Historico(xs, hoy)| > 0 ==>
            EsMedia(inf.promedioDiario, SumTrabajo(Historico(xs, hoy)) * CostoKwhClp, inf.diasHistorico))
  {
    PromedioDeInforme(Historico(xs, hoy), InformeDe(xs, hoy));
  }

  /** With rows today, the report's mean COP is their mean, its hours are the
      span of their instants plus one, and its projection is today's spend
      over those hours. */
  lemma InformeHoy(xs: seq<Muestra>, hoy: int)
    ensures var inf := InformeDe(xs, hoy); var dh := DeHoy(xs, hoy);
      |dh| > 0 ==>
        && EsMedia(inf.copPromedioHoy, SumCop(dh), |dh|)
        && inf.horasDatos == HorasDatos(HoraMin(dh), HoraMax(dh))
        && inf.proyeccion == Proyeccion(inf.gastoHoy, inf.horasDatos)
  {
    var inf := InformeDe(xs, hoy);
    var dh := DeHoy(xs, hoy);
    if |dh| > 0 {
      HoyDeInforme(dh, inf, FigurasHoy(dh, inf.promedioDiario));
    }
  }

  /** With rows today and a positive historical average, the report's
      deviation is the percentage by which the projection exceeds it. */
  lemma InformeDesviacion(xs: seq<Muestra>, hoy: int)
    ensures var inf := InformeDe(xs, hoy);
      |DeHoy(xs, hoy)| > 0 && inf.promedioDiario > 0.0 ==>
        EsDesviacion(inf.desviacion, inf.proyeccion, inf.promedioDiario)
  {
    var inf := InformeDe(xs, hoy);
    var dh := DeHoy(xs, hoy);
    if |dh| > 0 {
      HoyDeInforme(dh, inf, FigurasHoy(dh, inf.promedioDiario));
    }
  }

  /** The historical fields of any report built from `hist`. */
  lemma PromedioDeInforme(hist: seq<Muestra>, inf: Informe)
    requires inf.diasHistorico == DiasHistorico(hist) && inf.promedioDiario == PromedioDiario(hist)
    ensures inf.diasHistorico == |Fechas(hist)|
    ensures |hist| == 0 ==> inf.promedioDiario == 0.0
    ensures |hist| > 0 ==> EsMedia(inf.promedioDiario, SumTrabajo(hist) * CostoKwhClp, inf.diasHistorico)
  {
  }

  /** Today's fields of any report whose today's figures are `f`. */
  lemma HoyDeInforme(dh: seq<Muestra>, inf: Informe, f: (real, real, real, real, real))
    requires |dh| > 0
    requires EsMedia(f.1, SumCop(dh), |dh|)
    requires f.2 == HorasDatos(HoraMin(dh), HoraMax(dh)) && f.3 == Proyeccion(f.0, f.2)
    requires inf.promedioDiario > 0.0 ==> EsDesviacion(f.4, f.3, inf.promedioDiario)
    requires (inf.gastoHoy, inf.copPromedioHoy, inf.horasDatos, inf.proyeccion, inf.desviacion) == f
    ensures EsMedia(inf.copPromedioHoy, SumCop(dh), |dh|)
    ensures inf.horasDatos == HorasDatos(HoraMin(dh), HoraMax(dh))
    ensures inf.proyeccion == Proyeccion(inf.gastoHoy, inf.horasDatos)
    ensures inf.promedioDiario > 0.0 ==> EsDesviacion(inf.desviacion, inf.proyeccion, inf.promedioDiario)
  {
  }

  /** The cost view's figures, or nothing when there is no data (the view
      then shows its error message). */
  function Informar(xs: seq<Muestra>): (inf: Option<Informe>)
    ensures inf.None? <==> |xs| == 0
    ensures inf.Some? ==> inf.value == InformeDe(xs, FechaHoy(xs))
  {
    if |xs| == 0 then None else Some(InformeDe(xs, FechaHoy(xs)))
  }

  /** With data, today's hours are at least one, and the weekly spend splits
      into the historical spend and today's. */
  lemma InformeGastoSemanal(xs: seq<Muestra>)
    requires |xs| > 0
    ensures Informar(xs).value.horasDatos >= 1.0
    ensures Informar(xs).value.gastoSemanal
        == SumTrabajo(Historico(xs, FechaHoy(xs))) * CostoKwhClp + Informar(xs).value.gastoHoy
  {
    var hoy := FechaHoy(xs);
    SegmentacionParticion(xs, hoy);
    HoyNoVacio(xs);
  }

  /** On a single day of data there is no history: the average and the
      deviation are zero, so the band is Normal whatever the spend. */
  lemma {:induction false} UnSoloDia(xs: seq<Muestra>)
    requires |xs| > 0
    requires forall k :: 0 <= k < |xs| ==> xs[k].fecha == xs[0].fecha
    ensures Informar(xs).value.promedioDiario == 0.0
    ensures Informar(xs).value.diasHistorico == 0
    ensures BandaDesviacion(Informar(xs).value.desviacion) == Normal
  {
    var hoy := FechaHoy(xs);
    HoyNoVacio(xs);
    SegmentacionParticion(xs, hoy);
    DeHoyTodo(xs, hoy);
  }

  lemma {:induction false} DeHoyTodo(xs: seq<Muestra>, hoy: int)
    requires forall k :: 0 <= k < |xs| ==> xs[k].fecha == hoy
    ensures DeHoy(xs, hoy) == xs
  {
    if |xs| > 0 {
      DeHoyTodo(xs[..|xs| - 1], hoy);
      assert xs[..|xs| - 1] + [xs[|xs| - 1]] == xs;
    }
  }
}

=== FILE: costview.dfy ===
/** The per-unit part of the cost view: the detail lines and the
    drill-down keyboard built from the same summaries. Both look up a field
    of the unit identifier that may be missing; this module shows that they
    fail on the same identifiers, so a detail that renders always comes with
    its keyboard. */
module CostView {
  import Callbacks
  import Costs

  /** The detail name and the button name exist for the same identifiers:
      both use a fixed label for the three products and otherwise need a
      third `_`-separated field. */
  lemma NombreDetalleVisual(id: string)
    ensures Costs.NombreDetalle(id).Some? <==> Callbacks.NombreVisual(id).Some?
  {
  }

  /** Every identifier in the alarm list belongs to one of the summaries. */
  lemma AlarmaDeResumen(rs: seq<Costs.ResumenEquipo>, k: nat)
    requires k < |Costs.AlarmasDetalle(rs)|
    ensures exists j :: 0 <= j < |rs| && rs[j].idEquipo == Costs.AlarmasDetalle(rs)[k]
  {
    Costs.IdsDondeMembership(rs, Costs.UnidadRoja, Costs.AlarmasDetalle(rs)[k]);
  }

  /** When the detail renders, the keyboard below it renders too: one
      drill-down row per red unit, then refresh, then the menu. */
  lemma DetalleConTeclado(rs: seq<Costs.ResumenEquipo>)
    requires Costs.DetalleUnidades(rs).Some?
    ensures Callbacks.BotonesConRefresh("costos", Costs.AlarmasDetalle(rs)).Some?
  {
    var alarmas := Costs.AlarmasDetalle(rs);
    forall k | 0 <= k < |alarmas|
      ensures Callbacks.NombreVisual(alarmas[k]).Some?
    {
      AlarmaDeResumen(rs, k);
      var j :| 0 <= j < |rs| && rs[j].idEquipo == alarmas[k];
      NombreDetalleVisual(rs[j].idEquipo);
    }
  }
}

=== FILE: cycle.dfy ===
/** The real (non-ideal) vapour-compression cycle of
    `simular_refrigerador`: four refrigerant states and the cycle's scalar
    figures, computed by a fixed chain of property lookups and closed-form
    algebra. States are numbered as in the source: 1 compressor inlet,
    2 condenser inlet (compressor discharge), 3 condenser outlet,
    4 evaporator inlet. */
module Cycle {
  import opened Fallible
  import opened Refrigerant

  /** Defaults of the solver's two optional parameters. */
  const DefaultEta: real := 0.75
  const DefaultCondDeltaT: real := 15.0

  /** Inputs of one solve: ambient and interior temperature [degC], refrigerant
      mass flow [kg/s], isentropic efficiency of the compressor, and the
      condenser approach temperature difference [K]. */
  datatype OperatingParameters = OperatingParameters(
    ambientC: real,
    interiorC: real,
    massFlow: real,
    eta: real,
    condDeltaT: real)

  /** The operating point of a call that leaves both optional parameters at
      their defaults. */
  function WithDefaults(ambientC: real, interiorC: real, massFlow: real): OperatingParameters
  {
    OperatingParameters(ambientC, interiorC, massFlow, DefaultEta, DefaultCondDeltaT)
  }

  /** How a solve fails: the library rejected a query, or a division by zero
      (an efficiency of 0, or zero compressor work when forming the COP). */
  datatype SolveError = LookupFailed(output: Prop, name1: Prop, name2: Prop) | ZeroDivision

  /** One refrigerant state: pressure [Pa], temperature [K], enthalpy [J/kg],
      entropy [J/(kg K)] and its label. */
  datatype ThermoState = ThermoState(p: real, t: real, h: real, s: real, desc: string)

  /** Compressor work [kW], evaporator heat [kW], COP, evaporator-inlet vapour
      quality, discharge temperature [degC] and mass flow [kg/s]. */
  datatype Scalars = Scalars(
    workKW: real,
    heatKW: real,
    cop: real,
    quality: real,
    dischargeC: real,
    massFlow: real)

  datatype CycleResult = CycleResult(
    scalar: Scalars,
    compressorIn: ThermoState,
    condenserIn: ThermoState,
    condenserOut: ThermoState,
    evaporatorIn: ThermoState)

  /** One query to the library, failing as the library does. */
  function Lookup(props: PropsSI, output: Prop, name1: Prop, value1: real, name2: Prop, value2: real)
    : Result<real, SolveError>
  {
    match props(output, name1, value1, name2, value2, Fluid)
    case Some(x) => Success(x)
    case None => Failure(LookupFailed(output, name1, name2))
  }

  /** State 1 (saturated vapour at the evaporation temperature), the
      condensing pressure, and the end point of an isentropic compression. */
  datatype Compression = Compression(h1: real, s1: real, p2: real, h2Ideal: real)

  function IsentropicCompression(props: PropsSI, interiorK: real, condensingK: real)
    : (r: Result<Compression, SolveError>)
    ensures r.Success? ==>
      && props(H, T, interiorK, Q, 1.0, Fluid) == Some(r.value.h1)
      && props(S, T, interiorK, Q, 1.0, Fluid) == Some(r.value.s1)
      && props(P, T, condensingK, Q, 0.0, Fluid) == Some(r.value.p2)
      // the ideal end point keeps state 1's entropy at the condensing pressure
      && props(H, P, r.value.p2, S, r.value.s1, Fluid) == Some(r.value.h2Ideal)
  {
    var h1 :- Lookup(props, H, T, interiorK, Q, 1.0);
    var s1 :- Lookup(props, S, T, interiorK, Q, 1.0);
    var p2 :- Lookup(props, P, T, condensingK, Q, 0.0);
    var h2Ideal :- Lookup(props, H, P, p2, S, s1);
    Success(Compression(h1, s1, p2, h2Ideal))
  }

  /** Dividing a rise by an efficiency in (0, 1] never shrinks it. */
  lemma DividedRise(rise: real, eta: real)
    requires eta != 0.0
    ensures (rise / eta) * eta == rise
    ensures 0.0 < eta <= 1.0 && 0.0 <= rise ==> rise <= rise / eta
    ensures 0.0 < eta < 1.0 && 0.0 < rise ==> rise < rise / eta
  {
    var q := rise / eta;
    if 0.0 < eta <= 1.0 && 0.0 <= rise {
      assert q >= 0.0;
      assert q - rise == q * (1.0 - eta);
      assert q * (1.0 - eta) >= 0.0;
    }
    if 0.0 < eta < 1.0 && 0.0 < rise {
      assert q > 0.0;
      assert q - rise == q * (1.0 - eta);
      assert q * (1.0 - eta) > 0.0;
    }
  }

  /** The real outlet enthalpy of a compressor of isentropic efficiency `eta`.
      Its contract is the definition of isentropic efficiency: the ideal
      enthalpy rise is `eta` times the real one. */
  function RealOutletEnthalpy(h1: real, h2Ideal: real, eta: real): (h2: real)
    requires eta != 0.0
    ensures (h2 - h1) * eta == h2Ideal - h1
    ensures 0.0 < eta <= 1.0 && h1 <= h2Ideal ==> h1 <= h2Ideal <= h2
    ensures 0.0 < eta < 1.0 && h1 < h2Ideal ==> h2Ideal < h2
    ensures eta == 1.0 ==> h2 == h2Ideal
  {
    DividedRise(h2Ideal - h1, eta);
    h1 + (h2Ideal - h1) / eta
  }

  /** A product of positive reals is positive, and only a zero factor makes
      a product zero. */
  lemma ProductSign(m: real, x: real)
    ensures 0.0 < m && 0.0 < x ==> m * x > 0.0
    ensures m * x == 0.0 <==> m == 0.0 || x == 0.0
  {
  }

  /** Compressor work [W] for mass flow `m` between inlet enthalpy `h1` and
      the real outlet enthalpy. */
  function CompressorWork(m: real, h1: real, h2Ideal: real, eta: real): (w: real)
    requires eta != 0.0
    ensures w * eta == m * (h2Ideal - h1)
    ensures 0.0 < m && 0.0 < eta && h1 < h2Ideal ==> w > 0.0
  {
    var h2 := RealOutletEnthalpy(h1, h2Ideal, eta);
    assert m * (h2 - h1) * eta == m * ((h2 - h1) * eta);
    ProductSign(m, h2 - h1);
    m * (h2 - h1)
  }

  /** The work in kW is linear in the mass flow: for two flows the cross
      products agree, and one flow gives zero work exactly when the other
      does. */
  lemma WorkScalesWithFlow(m1: real, m2: real, h1: real, h2Ideal: real, eta: real)
    requires eta != 0.0 && m1 != 0.0 && m2 != 0.0
    ensures (CompressorWork(m1, h1, h2Ideal, eta) / 1000.0) * m2 == (CompressorWork(m2, h1, h2Ideal, eta) / 1000.0) * m1
    ensures CompressorWork(m1, h1, h2Ideal, eta) == 0.0 <==> CompressorWork(m2, h1, h2Ideal, eta) == 0.0
  {
    var h2 := RealOutletEnthalpy(h1, h2Ideal, eta);
    var w1 := CompressorWork(m1, h1, h2Ideal, eta);
    var w2 := CompressorWork(m2, h1, h2Ideal, eta);
    ProductSign(m1, h2 - h1);
    ProductSign(m2, h2 - h1);
    assert w1 * m2 == w2 * m1;
  }

  /** A common non-zero factor cancels from a quotient. */
  lemma CancelFactor(m: real, a: real, b: real)
    requires m != 0.0 && b != 0.0
    ensures (m * a) / (m * b) == a / b
  {
    var q := a / b;
    assert q * b == a;
    assert q * (m * b) == m * a;
  }

  /** The lookups that follow the compression and precede the COP division:
      state-2 entropy, the saturated-liquid condenser outlet (state 3), the
      evaporation pressure and the evaporator-inlet quality (state 4). */
  datatype Downstream = Downstream(s2: real, h3: real, t3: real, p4: real, x4: real)

  function CondenserAndThrottle(props: PropsSI, p2: real, h2: real, interiorK: real)
    : (r: Result<Downstream, SolveError>)
    ensures r.Success? ==>
      && props(S, P, p2, H, h2, Fluid) == Some(r.value.s2)
      && props(H, P, p2, Q, 0.0, Fluid) == Some(r.value.h3)
      && props(T, P, p2, Q, 0.0, Fluid) == Some(r.value.t3)
      && props(P, T, interiorK, Q, 1.0, Fluid) == Some(r.value.p4)
      // the quality is resolved at the evaporation pressure and h4 = h3
      && props(Q, P, r.value.p4, H, r.value.h3, Fluid) == Some(r.value.x4)
  {
    var s2 :- Lookup(props, S, P, p2, H, h2);
    var p3 := p2;
    var h3 :- Lookup(props, H, P, p3, Q, 0.0);
    var t3 :- Lookup(props, T, P, p3, Q, 0.0);
    var h4 := h3;
    var p4 :- Lookup(props, P, T, interiorK, Q, 1.0);
    var x4 :- Lookup(props, Q, P, p4, H, h4);
    Success(Downstream(s2, h3, t3, p4, x4))
  }

  /** The lookups made while packing the result: the discharge temperature,
      the entropies of states 3 and 4, and the state-2 temperature that the
      source recomputes from (h2, P2) after building the result. */
  datatype Reported = Reported(dischargeK: real, s3: real, s4: real, t2: real)

  function ReportedProperties(props: PropsSI, p2: real, h2: real, p4: real, h4: real)
    : (r: Result<Reported, SolveError>)
    // the two temperature queries are the same query, so they agree
    ensures r.Success? ==> r.value.t2 == r.value.dischargeK
    ensures r.Success? ==> props(T, H, h2, P, p2, Fluid) == Some(r.value.t2)
    ensures r.Success? ==> props(S, P, p2, Q, 0.0, Fluid) == Some(r.value.s3)
    ensures r.Success? ==> props(S, P, p4, H, h4, Fluid) == Some(r.value.s4)
  {
    var dischargeK :- Lookup(props, T, H, h2, P, p2);
    var s3 :- Lookup(props, S, P, p2, Q, 0.0);
    var s4 :- Lookup(props, S, P, p4, H, h4);
    match Lookup(props, T, H, h2, P, p2)
    case Failure(e) => Failure(e)
    case Success(t2) => Success(Reported(dischargeK, s3, s4, t2))
  }

  /** Packs the result dictionary of the source from the computed values. */
  function Assemble(op: OperatingParameters, c: Compression, h2: real, work: real, d: Downstream, rep: Reported)
    : (r: CycleResult)
    requires work == op.massFlow * (h2 - c.h1) && work != 0.0
    requires rep.t2 == rep.dischargeK
    ensures r.condenserOut.p == r.condenserIn.p
    ensures r.evaporatorIn.h == r.condenserOut.h
    ensures r.compressorIn.p == r.evaporatorIn.p && r.compressorIn.t == r.evaporatorIn.t
    ensures Celsius(r.condenserIn.t) == r.scalar.dischargeC
    ensures r.condenserIn.h != r.compressorIn.h
    ensures r.scalar.cop == (r.compressorIn.h - r.condenserOut.h) / (r.condenserIn.h - r.compressorIn.h)
    ensures r.scalar.workKW != 0.0 && r.scalar.cop * r.scalar.workKW == r.scalar.heatKW
    ensures r.scalar.workKW + r.scalar.heatKW == op.massFlow * (r.condenserIn.h - r.condenserOut.h) / 1000.0
    ensures r.scalar.workKW == op.massFlow * (r.condenserIn.h - r.compressorIn.h) / 1000.0
    ensures r.scalar.heatKW == op.massFlow * (r.compressorIn.h - r.evaporatorIn.h) / 1000.0
  {
    var interiorK := Kelvin(op.interiorC);
    var h4 := d.h3;
    var heat := op.massFlow * (c.h1 - h4);
    var cop := heat / work;
    CancelFactor(op.massFlow, c.h1 - h4, h2 - c.h1);
    assert work + heat == op.massFlow * (h2 - d.h3);
    CycleResult(
      Scalars(work / 1000.0, heat / 1000.0, cop, d.x4, Celsius(rep.dischargeK), op.massFlow),
      ThermoState(d.p4, interiorK, c.h1, c.s1, "Entrada Compresor"),
      ThermoState(c.p2, rep.t2, h2, d.s2, "Entrada Condensador"),
      ThermoState(c.p2, d.t3, d.h3, rep.s3, "Salida Condensador"),
      ThermoState(d.p4, interiorK, h4, rep.s4, "Entrada Evaporador"))
  }

  /** `simular_refrigerador`: the real cycle for the given operating point.
      The lookups and divisions happen in the source's order, so the first
      failure the source would raise is the error reported. */
  function Solve(props: PropsSI, op: OperatingParameters): (r: Result<CycleResult, SolveError>)
    // the source divides by the efficiency and by the work; both raise at 0
    ensures op.eta == 0.0 ==> r.Failure?
    ensures op.massFlow == 0.0 ==> r.Failure?
    // condenser outlet is isobaric with the discharge, throttling is isenthalpic
    ensures r.Success? ==> r.value.condenserOut.p == r.value.condenserIn.p
    ensures r.Success? ==> r.value.evaporatorIn.h == r.value.condenserOut.h
    // states 1 and 4 sit at the evaporation pressure and the interior temperature
    ensures r.Success? ==>
      && r.value.compressorIn.p == r.value.evaporatorIn.p
      && r.value.compressorIn.t == Kelvin(op.interiorC)
      && r.value.evaporatorIn.t == Kelvin(op.interiorC)
    // the reported discharge temperature is state 2's temperature
    ensures r.Success? ==> Celsius(r.value.condenserIn.t) == r.value.scalar.dischargeC
    ensures r.Success? ==> r.value.scalar.massFlow == op.massFlow
    // the mass flow cancels from the COP
    ensures r.Success? ==>
      && r.value.condenserIn.h != r.value.compressorIn.h
      && r.value.scalar.cop
         == (r.value.compressorIn.h - r.value.condenserOut.h) / (r.value.condenserIn.h - r.value.compressorIn.h)
    // COP relates evaporator heat to compressor work
    ensures r.Success? ==> r.value.scalar.workKW != 0.0 && r.value.scalar.cop * r.value.scalar.workKW == r.value.scalar.heatKW
    // energy balance: work plus evaporator heat is the heat the condenser rejects
    ensures r.Success? ==>
      r.value.scalar.workKW + r.value.scalar.heatKW
      == op.massFlow * (r.value.condenserIn.h - r.value.condenserOut.h) / 1000.0
    // work and heat in kW are the mass flow times the enthalpy differences of the states, over 1000
    ensures r.Success? ==>
      && r.value.scalar.workKW == op.massFlow * (r.value.condenserIn.h - r.value.compressorIn.h) / 1000.0
      && r.value.scalar.heatKW == op.massFlow * (r.value.compressorIn.h - r.value.evaporatorIn.h) / 1000.0
    // the evaporator-inlet quality is the library's value at (P4, h4), never clamped
    ensures r.Success? ==>
      props(Q, P, r.value.evaporatorIn.p, H, r.value.evaporatorIn.h, Fluid) == Some(r.value.scalar.quality)
  {
    var interiorK := Kelvin(op.interiorC);
    var c :- IsentropicCompression(props, interiorK, Kelvin(op.ambientC) + op.condDeltaT);
    if op.eta == 0.0 then Failure(ZeroDivision)
    else
      var h2 := RealOutletEnthalpy(c.h1, c.h2Ideal, op.eta);
      var work := CompressorWork(op.massFlow, c.h1, c.h2Ideal, op.eta);
      var d :- CondenserAndThrottle(props, c.p2, h2, interiorK);
      if work == 0.0 then Failure(ZeroDivision)
      else
        var rep :- ReportedProperties(props, c.p2, h2, d.p4, d.h3);
        Success(Assemble(op, c, h2, work, d, rep))
  }

  /** The library answers every query about the refrigerant. */
  ghost predicate LibraryTotal(props: PropsSI) {
    forall o, a, x, b, y :: props(o, a, x, b, y, Fluid).Some?
  }

  /** A compressor work is zero exactly when the flow is zero or the ideal
      enthalpy rise is. */
  lemma WorkZero(m: real, h1: real, h2Ideal: real, eta: real)
    requires eta != 0.0
    ensures CompressorWork(m, h1, h2Ideal, eta) == 0.0 <==> m == 0.0 || h2Ideal == h1
  {
    var h2 := RealOutletEnthalpy(h1, h2Ideal, eta);
    ProductSign(m, h2 - h1);
    ProductSign(h2 - h1, eta);
  }

  /** With a library that answers every query, the solve succeeds exactly
      when neither division of the source has a zero divisor: the efficiency
      is non-zero, and so is the work, that is the mass flow and the ideal
      enthalpy rise. */
  lemma SolveSucceeds(props: PropsSI, op: OperatingParameters)
    requires LibraryTotal(props)
    ensures IsentropicCompression(props, Kelvin(op.interiorC), Kelvin(op.ambientC) + op.condDeltaT).Success?
    ensures
      var c := IsentropicCompression(props, Kelvin(op.interiorC), Kelvin(op.ambientC) + op.condDeltaT).value;
      Solve(props, op).Success? <==> op.eta != 0.0 && op.massFlow != 0.0 && c.h2Ideal != c.h1
  {
    var c := IsentropicCompression(props, Kelvin(op.interiorC), Kelvin(op.ambientC) + op.condDeltaT);
    assert c.Success?;
    if op.eta != 0.0 {
      var h2 := RealOutletEnthalpy(c.value.h1, c.value.h2Ideal, op.eta);
      WorkZero(op.massFlow, c.value.h1, c.value.h2Ideal, op.eta);
      assert CondenserAndThrottle(props, c.value.p2, h2, Kelvin(op.interiorC)).Success?;
      var d := CondenserAndThrottle(props, c.value.p2, h2, Kelvin(op.interiorC)).value;
      assert ReportedProperties(props, c.value.p2, h2, d.p4, d.h3).Success?;
    }
  }

  /** A division by zero is reported only where the source divides by zero:
      after the compression queries succeed, with a zero efficiency, or with
      a zero work, that is a zero mass flow or a zero ideal enthalpy rise. */
  lemma ZeroDivisionOnlyAtZero(props: PropsSI, op: OperatingParameters)
    requires Solve(props, op) == Failure(ZeroDivision)
    ensures IsentropicCompression(props, Kelvin(op.interiorC), Kelvin(op.ambientC) + op.condDeltaT).Success?
    ensures
      var c := IsentropicCompression(props, Kelvin(op.interiorC), Kelvin(op.ambientC) + op.condDeltaT).value;
      op.eta == 0.0 || op.massFlow == 0.0 || c.h2Ideal == c.h1
  {
    var c := IsentropicCompression(props, Kelvin(op.interiorC), Kelvin(op.ambientC) + op.condDeltaT);
    if c.Success? && op.eta != 0.0 {
      WorkZero(op.massFlow, c.value.h1, c.value.h2Ideal, op.eta);
    }
  }

  /** The same operating point with a different mass flow. */
  function WithMassFlow(op: OperatingParameters, m: real): OperatingParameters
  {
    op.(massFlow := m)
  }

  /** The mass flow does not change which queries are made: for any two
      non-zero flows the solve succeeds for both or for neither, the four
      states coincide, the COP is the same, and the work scales with the
      flow. */
  lemma CopIndependentOfMassFlow(props: PropsSI, op: OperatingParameters, m: real)
    requires op.massFlow != 0.0 && m != 0.0
    ensures Solve(props, op).Success? <==> Solve(props, WithMassFlow(op, m)).Success?
    ensures Solve(props, op).Success? ==>
      var r1 := Solve(props, op).value;
      var r2 := Solve(props, WithMassFlow(op, m)).value;
      && r1.compressorIn == r2.compressorIn
      && r1.condenserIn == r2.condenserIn
      && r1.condenserOut == r2.condenserOut
      && r1.evaporatorIn == r2.evaporatorIn
      && r1.scalar.cop == r2.scalar.cop
      && r1.scalar.workKW * m == r2.scalar.workKW * op.massFlow
  {
    var op2 := WithMassFlow(op, m);
    var c := IsentropicCompression(props, Kelvin(op.interiorC), Kelvin(op.ambientC) + op.condDeltaT);
    if c.Success? && op.eta != 0.0 {
      WorkScalesWithFlow(op.massFlow, m, c.value.h1, c.value.h2Ideal, op.eta);
    }
  }

  /** The discharge state holds the REAL enthalpy: the state-2 enthalpy
      relates to the isentropic end point through the efficiency, equals it
      for an ideal compressor only, and lies above it for 0 < eta < 1. */
  lemma DischargeStateIsReal(props: PropsSI, op: OperatingParameters)
    requires Solve(props, op).Success?
    ensures
      var c := IsentropicCompression(props, Kelvin(op.interiorC), Kelvin(op.ambientC) + op.condDeltaT);
      var r := Solve(props, op).value;
      && c.Success?
      && r.compressorIn.h == c.value.h1
      && r.compressorIn.s == c.value.s1
      && r.condenserIn.p == c.value.p2
      && (r.condenserIn.h - c.value.h1) * op.eta == c.value.h2Ideal - c.value.h1
      && (op.eta == 1.0 ==> r.condenserIn.h == c.value.h2Ideal)
      && (op.eta != 1.0 && c.value.h2Ideal != c.value.h1 ==> r.condenserIn.h != c.value.h2Ideal)
      && (0.0 < op.eta <= 1.0 && c.value.h1 <= c.value.h2Ideal ==>
            r.compressorIn.h <= c.value.h2Ideal <= r.condenserIn.h)
  {
    var c := IsentropicCompression(props, Kelvin(op.interiorC), Kelvin(op.ambientC) + op.condDeltaT);
    var h2 := RealOutletEnthalpy(c.value.h1, c.value.h2Ideal, op.eta);
    ProductSign(h2 - c.value.h1, op.eta - 1.0);
    assert (h2 - c.value.h1) * op.eta - (h2 - c.value.h1) == (h2 - c.value.h1) * (op.eta - 1.0);
  }

  /** Every pressure, temperature, entropy and quality of a solved cycle is
      the library's answer at the state the cycle fixes: states 1 and 4 sit at
      the saturated-vapour pressure of the interior temperature, state 3 is
      saturated liquid at the condensing pressure, state 2 is resolved from
      its real enthalpy, and the quality is read at state 4. */
  lemma StatesFromLibrary(props: PropsSI, op: OperatingParameters)
    requires Solve(props, op).Success?
    ensures
      var r := Solve(props, op).value;
      var interiorK := Kelvin(op.interiorC);
      && r.compressorIn.t == interiorK && r.evaporatorIn.t == interiorK
      && props(P, T, interiorK, Q, 1.0, Fluid) == Some(r.evaporatorIn.p)
      && r.compressorIn.p == r.evaporatorIn.p
      && props(P, T, Kelvin(op.ambientC) + op.condDeltaT, Q, 0.0, Fluid) == Some(r.condenserIn.p)
      && props(S, P, r.condenserIn.p, H, r.condenserIn.h, Fluid) == Some(r.condenserIn.s)
      && props(T, H, r.condenserIn.h, P, r.condenserIn.p, Fluid) == Some(r.condenserIn.t)
      && props(H, P, r.condenserIn.p, Q, 0.0, Fluid) == Some(r.condenserOut.h)
      && props(T, P, r.condenserIn.p, Q, 0.0, Fluid) == Some(r.condenserOut.t)
      && props(S, P, r.condenserIn.p, Q, 0.0, Fluid) == Some(r.condenserOut.s)
      && props(S, P, r.evaporatorIn.p, H, r.evaporatorIn.h, Fluid) == Some(r.evaporatorIn.s)
      && props(Q, P, r.evaporatorIn.p, H, r.evaporatorIn.h, Fluid) == Some(r.scalar.quality)
  {
    var interiorK := Kelvin(op.interiorC);
    var c := IsentropicCompression(props, interiorK, Kelvin(op.ambientC) + op.condDeltaT).value;
    var h2 := RealOutletEnthalpy(c.h1, c.h2Ideal, op.eta);
    var d := CondenserAndThrottle(props, c.p2, h2, interiorK).value;
    var rep := ReportedProperties(props, c.p2, h2, d.p4, d.h3).value;
    var work := CompressorWork(op.massFlow, c.h1, c.h2Ideal, op.eta);
    assert Solve(props, op).value == Assemble(op, c, h2, work, d, rep);
  }

  /** Two works that share the product `w * eta`: the one with the smaller
      efficiency is the larger. */
  lemma InverseInEfficiency(k: real, eta1: real, eta2: real, w1: real, w2: real)
    requires 0.0 <= k && 0.0 < eta1 <= eta2
    requires w1 * eta1 == k && w2 * eta2 == k
    ensures w1 >= w2
  {
    assert w2 >= 0.0;
    assert w2 * eta1 <= w2 * eta2;
  }

  /** Where a successful solve's work and enthalpies come from. */
  lemma SolvedWork(props: PropsSI, op: OperatingParameters)
    requires Solve(props, op).Success?
    ensures
      var c := IsentropicCompression(props, Kelvin(op.interiorC), Kelvin(op.ambientC) + op.condDeltaT);
      var r := Solve(props, op).value;
      && c.Success? && op.eta != 0.0
      && r.compressorIn.h == c.value.h1
      && r.condenserIn.h == RealOutletEnthalpy(c.value.h1, c.value.h2Ideal, op.eta)
      && r.scalar.workKW == CompressorWork(op.massFlow, c.value.h1, c.value.h2Ideal, op.eta) / 1000.0
  {
  }

  /** With the enthalpy rise of the real compression non-negative, a smaller
      efficiency never gives a smaller compressor work. */
  lemma WorkAntitoneInEfficiency(m: real, h1: real, h2Ideal: real, eta1: real, eta2: real)
    requires 0.0 < eta1 <= eta2 && 0.0 <= m
    requires h1 <= RealOutletEnthalpy(h1, h2Ideal, eta1)
    ensures CompressorWork(m, h1, h2Ideal, eta1) >= CompressorWork(m, h1, h2Ideal, eta2)
  {
    var h2 := RealOutletEnthalpy(h1, h2Ideal, eta1);
    var rise := h2Ideal - h1;
    ProductSign(h2 - h1, eta1);
    assert rise >= 0.0;
    ProductSign(m, rise);
    InverseInEfficiency(m * rise, eta1, eta2, CompressorWork(m, h1, h2Ideal, eta1), CompressorWork(m, h1, h2Ideal, eta2));
  }

  /** A less efficient compressor never needs less work for the same
      operating point, when the real compression raises the enthalpy. */
  lemma LowerEfficiencyNeverLowersWork(props: PropsSI, op: OperatingParameters, eta: real)
    requires 0.0 < op.eta <= eta && 0.0 <= op.massFlow
    requires Solve(props, op).Success? && Solve(props, op.(eta := eta)).Success?
    requires Solve(props, op).value.compressorIn.h <= Solve(props, op).value.condenserIn.h
    ensures Solve(props, op).value.scalar.workKW >= Solve(props, op.(eta := eta)).value.scalar.workKW
  {
    SolvedWork(props, op);
    SolvedWork(props, op.(eta := eta));
    var c := IsentropicCompression(props, Kelvin(op.interiorC), Kelvin(op.ambientC) + op.condDeltaT).value;
    WorkAntitoneInEfficiency(op.massFlow, c.h1, c.h2Ideal, op.eta, eta);
  }
}

=== FILE: dashboard.dfy ===
/** The fleet view of the dashboard bot: the traffic light of a unit from its
    latest state label and COP, and the list of units offered for fault
    drill-down. */
module Dashboard {
  import Classifier

  /** The three lights of the dashboard, red being the most severe. */
  datatype Light = Rojo | Amarillo | Verde {

    function Severity(): nat {
      match this
      case Verde => 0
      case Amarillo => 1
      case Rojo => 2
    }
  }

  /** The COP below which a unit is red whatever its label. */
  const CopCritico: real := 2.0

  /** `obtener_semaforo`: red for an alarm label or a critical COP, else
      yellow for a warning label, else green. */
  function Semaforo(estado: string, cop: real): (l: Light)
    ensures l == Rojo <==> estado == "ALARMA" || cop < CopCritico
    ensures l == Amarillo <==> estado != "ALARMA" && cop >= CopCritico && estado == "ADVERTENCIA"
    ensures l == Verde <==> estado != "ALARMA" && estado != "ADVERTENCIA" && cop >= CopCritico
  {
    if estado == "ALARMA" || cop < CopCritico then Rojo
    else if estado == "ADVERTENCIA" then Amarillo
    else Verde
  }

  /** For a label the generator wrote, the light agrees with the state: red
      exactly for an alarm, yellow exactly for a warning. The COP test of the
      light adds nothing, because the generator already labels a COP below 2
      as an alarm. */
  lemma SemaforoOfClassified(deltaT: real, cop: real)
    ensures var e := Classifier.Classify(deltaT, cop);
      && (Semaforo(e.Name(), cop) == Rojo <==> e == Classifier.Alarma)
      && (Semaforo(e.Name(), cop) == Amarillo <==> e == Classifier.Advertencia)
      && (Semaforo(e.Name(), cop) == Verde <==> e == Classifier.Normal)
      && Semaforo(e.Name(), cop).Severity() == e.Severity()
  {
    var e := Classifier.Classify(deltaT, cop);
    Classifier.NameInjective(e, Classifier.Alarma);
    Classifier.NameInjective(e, Classifier.Advertencia);
  }

  /** For a fixed label, a lower COP never gives a milder light. */
  lemma SemaforoMonotoneInCop(estado: string, cop1: real, cop2: real)
    requires cop2 <= cop1
    ensures Semaforo(estado, cop1).Severity() <= Semaforo(estado, cop2).Severity()
  {
  }

  /** The latest record of one unit, as the fleet view reads it. */
  datatype FleetRow = FleetRow(idEquipo: string, tInteriorC: real, estado: string, cop: real)

  /** Whether the fleet view flags a row for drill-down. */
  predicate EnAlarma(row: FleetRow) {
    row.estado == "ALARMA" || row.cop < CopCritico
  }

  /** The light the fleet view prints for a row: the semaphore, forced to red
      for a flagged row. */
  function FleetLight(row: FleetRow): (l: Light)
    ensures l == Semaforo(row.estado, row.cop)
    ensures l == Rojo <==> EnAlarma(row)
  {
    if EnAlarma(row) then Rojo else Semaforo(row.estado, row.cop)
  }

  /** The identifiers of the flagged rows, in row order. */
  function FleetAlarms(rows: seq<FleetRow>): (ids: seq<string>)
    ensures |ids| <= |rows|
  {
    if |rows| == 0 then []
    else
      var rest := FleetAlarms(rows[..|rows| - 1]);
      var last := rows[|rows| - 1];
      if EnAlarma(last) then rest + [last.idEquipo] else rest
  }

  /** A unit is offered for drill-down exactly when one of its rows shows a
      red light. */
  lemma {:induction false} FleetAlarmsMembership(rows: seq<FleetRow>, id: string)
    ensures id in FleetAlarms(rows) <==>
      exists k :: 0 <= k < |rows| && rows[k].idEquipo == id && Semaforo(rows[k].estado, rows[k].cop) == Rojo
  {
    if |rows| > 0 {
      var init := rows[..|rows| - 1];
      FleetAlarmsMembership(init, id);
      if exists k :: 0 <= k < |init| && init[k].idEquipo == id && Semaforo(init[k].estado, init[k].cop) == Rojo {
        var k :| 0 <= k < |init| && init[k].idEquipo == id && Semaforo(init[k].estado, init[k].cop) == Rojo;
        assert rows[k] == init[k];
      }
      if exists k :: 0 <= k < |rows| && rows[k].idEquipo == id && Semaforo(rows[k].estado, rows[k].cop) == Rojo {
        var k :| 0 <= k < |rows| && rows[k].idEquipo == id && Semaforo(rows[k].estado, rows[k].cop) == Rojo;
        if k < |rows| - 1 {
          assert init[k] == rows[k];
        }
      }
    }
  }

  /** Reference definition of the drill-down list, read front to back: the
      identifier of each flagged row, in row order. */
  function FlaggedIds(rows: seq<FleetRow>): seq<string>
    decreases |rows|
  {
    if |rows| == 0 then []
    else (if EnAlarma(rows[0]) then [rows[0].idEquipo] else []) + FlaggedIds(rows[1..])
  }

  /** Appending a row to the reference list appends its identifier when it
      is flagged. */
  lemma {:induction false} FlaggedIdsSnoc(rows: seq<FleetRow>, row: FleetRow)
    ensures FlaggedIds(rows + [row]) == FlaggedIds(rows) + (if EnAlarma(row) then [row.idEquipo] else [])
    decreases |rows|
  {
    if |rows| == 0 {
      assert rows + [row] == [row];
      assert [row][1..] == [];
    } else {
      var head := if EnAlarma(rows[0]) then [rows[0].idEquipo] else [];
      assert (rows + [row])[0] == rows[0];
      assert (rows + [row])[1..] == rows[1..] + [row];
      assert FlaggedIds(rows + [row]) == head + FlaggedIds(rows[1..] + [row]);
      FlaggedIdsSnoc(rows[1..], row);
    }
  }

  /** The bot's drill-down list is exactly the identifiers of the flagged
      rows in row order: nothing reordered, nothing added, nothing else
      dropped. */
  lemma {:induction false} FleetAlarmsFilter(rows: seq<FleetRow>)
    ensures FleetAlarms(rows) == FlaggedIds(rows)
    decreases |rows|
  {
    if |rows| > 0 {
      var init := rows[..|rows| - 1];
      FleetAlarmsFilter(init);
      assert init + [rows[|rows| - 1]] == rows;
      FlaggedIdsSnoc(init, rows[|rows| - 1]);
    }
  }

  /** The drill-down list keeps the row order: a list of flagged rows is
      listed in full, and a list with no flagged row gives no drill-down. */
  lemma {:induction false} FleetAlarmsOrder(rows: seq<FleetRow>)
    ensures (forall k :: 0 <= k < |rows| ==> EnAlarma(rows[k])) ==>
      |FleetAlarms(rows)| == |rows| &&
      forall k :: 0 <= k < |rows| ==> FleetAlarms(rows)[k] == rows[k].idEquipo
    ensures (forall k :: 0 <= k < |rows| ==> !EnAlarma(rows[k])) ==> FleetAlarms(rows) == []
  {
    if |rows| > 0 {
      var init := rows[..|rows| - 1];
      FleetAlarmsOrder(init);
      if forall k :: 0 <= k < |rows| ==> EnAlarma(rows[k]) {
        assert forall k :: 0 <= k < |init| ==> EnAlarma(init[k]) by {
          forall k | 0 <= k < |init| ensures EnAlarma(init[k]) {
            assert init[k] == rows[k];
          }
        }
      }
      if forall k :: 0 <= k < |rows| ==> !EnAlarma(rows[k]) {
        assert forall k :: 0 <= k < |init| ==> !EnAlarma(init[k]) by {
          forall k | 0 <= k < |init| ensures !EnAlarma(init[k]) {
            assert init[k] == rows[k];
          }
        }
      }
    }
  }
}

=== FILE: degradation.dfy ===
/** The per-tick operating-point perturbations of the generator: door
    openings that raise the condenser temperature difference, progressive
    condenser fouling near the end of the horizon, and jitter of the
    compressor efficiency. Every random number is an explicit draw. */
module Degradation {
  import Settings

  const DeltaTCondBase: real := 15.0
  const EtaBase: real := 0.75
  const EtaMin: real := 0.60
  const EtaMax: real := 0.85

  /** Fouling sets in once this many days or fewer remain. */
  const DiasFalla: int := 2
  /** Growth of the fouling factor per day past the threshold. */
  const PasoFalla: real := 0.7

  /** A value of `random.random()`: uniform on [0, 1). */
  predicate UnitDraw(u: real) {
    0.0 <= u < 1.0
  }

  /** A unit draw scales a non-negative width to at most that width. */
  lemma ScaledDraw(w: real, u: real)
    ensures UnitDraw(u) && 0.0 <= w ==> 0.0 <= w * u <= w
    ensures UnitDraw(u) && 0.0 < w ==> w * u < w
  {
    assert w - w * u == w * (1.0 - u);
    if UnitDraw(u) && 0.0 < w {
      assert w * (1.0 - u) > 0.0;
    }
  }

  /** `random.uniform(a, b)` for the unit draw `u` it consumes. */
  function Uniform(a: real, b: real, u: real): (x: real)
    ensures UnitDraw(u) && a <= b ==> a <= x <= b
    ensures UnitDraw(u) && a < b ==> x < b
  {
    var w := b - a;
    ScaledDraw(w, u);
    a + w * u
  }

  /** `simular_evento_apertura_puerta`: the extra condenser temperature
      difference from door openings. `prob` is the first draw, `u` the one
      `uniform` consumes when an opening happens. */
  function AperturaPuerta(prob: real, u: real): (extra: real)
    ensures prob < 0.05 && UnitDraw(u) ==> 3.0 <= extra < 8.0
    ensures 0.05 <= prob < 0.20 && UnitDraw(u) ==> 1.0 <= extra < 3.0
    ensures 0.20 <= prob ==> extra == 0.0
    ensures UnitDraw(u) ==> 0.0 <= extra < 8.0 && (extra == 0.0 <==> 0.20 <= prob)
  {
    if prob < 0.05 then Uniform(3.0, 8.0, u)
    else if prob < 0.20 then Uniform(1.0, 3.0, u)
    else 0.0
  }

  /** Whole days left in the horizon at tick `i` (`//` on non-negative
      operands, so Dafny's `/` agrees with Python's). */
  function DiasRestantes(i: nat): int
  {
    Settings.DiasSimulacion - i / Settings.HorasPorDia
  }

  /** The fouling factor on the condenser temperature difference. Within the
      seven-day grid it is 1 except on the last day (ticks 144 to 167), where
      it is 1.7: on the day with exactly two days left the formula still
      yields 1. */
  function FactorDegradacion(i: nat): (f: real)
    ensures f >= 1.0
    ensures i < Settings.TotalPuntos ==> (f == 1.7 <==> 144 <= i) && (f == 1.0 <==> i < 144)
  {
    var d := DiasRestantes(i);
    if d <= DiasFalla then 1.0 + (DiasFalla - d) as real * PasoFalla else 1.0
  }

  /** Fouling only grows with time. */
  lemma FactorDegradacionMonotone(i: nat, j: nat)
    requires i <= j
    ensures FactorDegradacion(i) <= FactorDegradacion(j)
  {
    assert i / 24 <= j / 24;
  }

  /** The condenser temperature difference of tick `i` given the door-opening
      extra: the base plus the extra, inflated by fouling near the end. */
  function DeltaTCondensador(i: nat, extra: real): (dt: real)
    ensures dt == (DeltaTCondBase + extra) * FactorDegradacion(i)
    ensures 0.0 <= extra ==> DeltaTCondBase + extra <= dt
    ensures i < Settings.TotalPuntos && 0.0 <= extra < 8.0 ==> DeltaTCondBase <= dt < 23.0 * 1.7
  {
    var dt := DeltaTCondBase + extra;
    if DiasRestantes(i) <= DiasFalla then dt * FactorDegradacion(i) else dt
  }

  /** For a fixed door-opening extra, the temperature difference never falls
      as the horizon advances. */
  lemma DeltaTCondensadorMonotone(i: nat, j: nat, extra: real)
    requires i <= j && 0.0 <= extra
    ensures DeltaTCondensador(i, extra) <= DeltaTCondensador(j, extra)
  {
    FactorDegradacionMonotone(i, j);
    ScaleMonotone(DeltaTCondBase + extra, FactorDegradacion(i), FactorDegradacion(j));
  }

  /** Scaling by a non-negative amount keeps the order. */
  lemma ScaleMonotone(c: real, f: real, g: real)
    requires 0.0 <= c && f <= g
    ensures c * f <= c * g
  {
    assert c * g - c * f == c * (g - f);
  }

  function Max(a: real, b: real): real { if a >= b then a else b }
  function Min(a: real, b: real): real { if a <= b then a else b }

  /** The compressor efficiency for the jitter `v`: the baseline plus the
      jitter, clamped to [0.60, 0.85]. The clamp is inactive exactly when the
      jitter lies in [-0.15, 0.10]. */
  function Eficiencia(v: real): (eta: real)
    ensures EtaMin <= eta <= EtaMax
    ensures eta == EtaBase + v <==> -0.15 <= v <= 0.10
  {
    Max(EtaMin, Min(EtaMax, EtaBase + v))
  }

  /** The generator draws its jitter from `uniform(-0.03, 0.02)`, so the clamp
      never acts: the efficiency is the baseline plus the jitter. */
  lemma JitterNeverClamped(u: real)
    requires UnitDraw(u)
    ensures Eficiencia(Uniform(-0.03, 0.02, u)) == EtaBase + Uniform(-0.03, 0.02, u)
    ensures 0.72 <= Eficiencia(Uniform(-0.03, 0.02, u)) < 0.77
  {
  }
}

=== FILE: environment.dfy ===
/** `calcular_temperatura_ambiente`: the ambient temperature of the plant as
    a seasonal base, a daily swing and an additive noise term. The hour of
    day, the day of year and the noise draw are inputs. */
module Environment {

  const TempBaseInvierno: real := -5.0
  const TempBaseVerano: real := 10.0

  /** The reference day of the seasonal blend. */
  const DiaReferencia: int := 172

  /** The hour of the daily maximum. */
  const HoraPico: int := 15

  function Abs(x: int): (a: nat)
    ensures a == x || a == -x
  {
    if x < 0 then -x else x
  }

  /** The seasonal base: a linear blend of the winter and summer baselines
      driven by the day of year. It lies between the two baselines exactly on
      days 0 to 344; from day 345 on it exceeds the summer baseline. */
  function SeasonalBase(dia: int): (b: real)
    ensures dia == DiaReferencia ==> b == 2.5
    ensures TempBaseInvierno <= b <= TempBaseVerano <==> 0 <= dia <= 2 * DiaReferencia
  {
    var factor := 0.5 * (1.0 + (dia - DiaReferencia) as real / DiaReferencia as real);
    TempBaseInvierno + (TempBaseVerano - TempBaseInvierno) * factor
  }

  /** The seasonal base never falls as the year advances. */
  lemma SeasonalBaseMonotone(d1: int, d2: int)
    requires d1 <= d2
    ensures SeasonalBase(d1) <= SeasonalBase(d2)
  {
  }

  /** The daily swing: a tent of height 4 peaking at 15:00 and falling by a
      third of a degree per hour away from it. */
  function Diurnal(hora: int): (v: real)
    ensures v <= 4.0
    ensures v == 4.0 <==> hora == HoraPico
    ensures 0 <= hora <= 23 ==> -1.0 <= v <= 4.0
  {
    4.0 * (1.0 - Abs(hora - HoraPico) as real / 12.0)
  }

  /** The swing is symmetric about the peak hour, and over a day's hours its
      lowest value is at midnight, not at 06:00. */
  lemma DiurnalShape(k: int, hora: int)
    ensures Diurnal(HoraPico + k) == Diurnal(HoraPico - k)
    ensures 0 <= hora <= 23 ==> Diurnal(0) <= Diurnal(hora)
    ensures Diurnal(0) == -1.0 && Diurnal(6) == 1.0
  {
  }

  /** The ambient temperature before rounding to one decimal. */
  function AmbientTemperature(hora: int, dia: int, ruido: real): (t: real)
    ensures 0 <= hora <= 23 && 0 <= dia <= 2 * DiaReferencia ==>
      TempBaseInvierno - 1.0 + ruido <= t <= TempBaseVerano + 4.0 + ruido
  {
    SeasonalBase(dia) + Diurnal(hora) + ruido
  }

  /** For a fixed day and noise draw the day's warmest hour is 15:00, and no
      other hour is as warm. */
  lemma AmbientPeak(hora: int, dia: int, ruido: real)
    ensures AmbientTemperature(hora, dia, ruido) <= AmbientTemperature(HoraPico, dia, ruido)
    ensures AmbientTemperature(hora, dia, ruido) == AmbientTemperature(HoraPico, dia, ruido) <==> hora == HoraPico
  {
  }

  /** For a fixed hour and noise draw a later day of the year is never
      colder. */
  lemma AmbientSeasonal(hora: int, d1: int, d2: int, ruido: real)
    requires d1 <= d2
    ensures AmbientTemperature(hora, d1, ruido) <= AmbientTemperature(hora, d2, ruido)
  {
    SeasonalBaseMonotone(d1, d2);
  }

  /** The noise enters additively: two draws at the same hour and day give
      temperatures that differ by exactly the difference of the draws. */
  lemma NoiseIsAdditive(hora: int, dia: int, ruido1: real, ruido2: real)
    ensures AmbientTemperature(hora, dia, ruido1) - AmbientTemperature(hora, dia, ruido2) == ruido1 - ruido2
  {
  }
}

=== FILE: fallible.dfy ===
/** Failure-compatible wrappers shared by the model: `Option` for a lookup that
    may come back empty and `Result` for a computation that may raise. Both can
    be used with `:-`. */
module Fallible {

  datatype Option<+T> = None | Some(value: T) {

    predicate IsFailure() {
      None?
    }

    function PropagateFailure<U>(): Option<U>
      requires None?
    {
      None
    }

    function Extract(): T
      requires Some?
    {
      value
    }
  }

  datatype Result<+T, +E> = Success(value: T) | Failure(error: E) {

    predicate IsFailure() {
      Failure?
    }

    function PropagateFailure<U>(): Result<U, E>
      requires Failure?
    {
      Failure(error)
    }

    function Extract(): T
      requires Success?
    {
      value
    }
  }
}

=== FILE: generator.dfy ===
/** `generar_datos`: the telemetry generator. It walks the hourly time grid
    and, for every tick, every cold room in configuration order: it derives
    the ambient temperature and the perturbed operating point, solves the
    cycle, classifies the result and appends a record. A tick whose solve
    fails is skipped for that room only. Every random number, the start
    instant and the calendar are inputs, so a tick's record depends only on
    its index, the room's configuration and those inputs. */
module Generator {
  import opened Fallible
  import opened Refrigerant
  import opened Settings
  import Cycle
  import Environment
  import Degradation
  import Classifier

  /** Hour of day and day of year of an instant. */
  datatype Clock = Clock(hora: int, diaDelAnio: int)

  /** The draws of one (tick, room) pair: the door-opening probability, the
      draw `uniform` consumes for the opening size, the draw for the
      efficiency jitter and the draw for the interior-temperature jitter. */
  datatype UnitDraws = UnitDraws(puerta: real, apertura: real, eta: real, interior: real)

  /** What a run takes from outside: its start instant [h], the calendar
      mapping an instant to hour and day, the Gaussian noise of each tick and
      the draws of each (tick, room) pair. */
  datatype Run = Run(
    inicio: int,
    calendario: int -> Clock,
    ruido: nat -> real,
    sorteos: (nat, nat) -> UnitDraws)

  /** One telemetry record, before rounding. */
  datatype Registro = Registro(
    timestamp: int,
    idEquipo: string,
    tAmbienteC: real,
    tInteriorC: real,
    deltaTCondC: real,
    etaCompresor: real,
    cop: real,
    tempDescargaC: real,
    trabajoKW: real,
    calorExtraidoKW: real,
    calidadEvap: real,
    estado: Classifier.Estado)

  /** Instant [h] of tick `i`. */
  function Fecha(run: Run, i: nat): int
  {
    run.inicio + i * FrecuenciaHoras
  }

  /** Ambient temperature of tick `i`, shared by every room of the tick. */
  function TAmbiente(run: Run, i: nat): real
  {
    var c := run.calendario(Fecha(run, i));
    Environment.AmbientTemperature(c.hora, c.diaDelAnio, run.ruido(i))
  }

  /** The operating point handed to the solver for room `e` (the `j`-th) at
      tick `i`. */
  function Parametros(run: Run, i: nat, j: nat, e: Equipment): Cycle.OperatingParameters
  {
    var d := run.sorteos(i, j);
    var deltaT := Degradation.DeltaTCondensador(i, Degradation.AperturaPuerta(d.puerta, d.apertura));
    var eta := Degradation.Eficiencia(Degradation.Uniform(-0.03, 0.02, d.eta));
    Cycle.OperatingParameters(TAmbiente(run, i), e.interiorC as real, e.massFlow, eta, deltaT)
  }

  /** The generator perturbs the solver's defaults: before the last day the
      temperature difference is the default plus the door-opening extra and
      the efficiency is the default plus the jitter, so a tick without door
      openings and with a zero jitter solves the solver's default point. */
  lemma PerturbsSolverDefaults(run: Run, i: nat, j: nat, e: Equipment)
    requires i < TotalPuntos - HorasPorDia
    requires Degradation.UnitDraw(run.sorteos(i, j).eta)
    ensures
      var d := run.sorteos(i, j);
      var p := Parametros(run, i, j, e);
      && p.condDeltaT == Cycle.DefaultCondDeltaT + Degradation.AperturaPuerta(d.puerta, d.apertura)
      && p.eta == Cycle.DefaultEta + Degradation.Uniform(-0.03, 0.02, d.eta)
      && (0.20 <= d.puerta && Degradation.Uniform(-0.03, 0.02, d.eta) == 0.0 ==>
            p == Cycle.WithDefaults(TAmbiente(run, i), e.interiorC as real, e.massFlow))
  {
    Degradation.JitterNeverClamped(run.sorteos(i, j).eta);
  }

  /** The record of room `e` (the `j`-th) at tick `i`, or nothing when the
      solve fails. */
  function RegistroDe(props: PropsSI, run: Run, i: nat, j: nat, e: Equipment): (r: Option<Registro>)
    ensures r.Some? <==> Cycle.Solve(props, Parametros(run, i, j, e)).Success?
    ensures r.Some? ==>
      && r.value.timestamp == Fecha(run, i)
      && r.value.idEquipo == e.id
      && r.value.tAmbienteC == TAmbiente(run, i)
      && r.value.estado == Classifier.Classify(r.value.deltaTCondC, r.value.cop)
      && Degradation.EtaMin <= r.value.etaCompresor <= Degradation.EtaMax
    ensures r.Some? ==>
      var d := run.sorteos(i, j);
      && r.value.deltaTCondC == Degradation.DeltaTCondensador(i, Degradation.AperturaPuerta(d.puerta, d.apertura))
      && r.value.etaCompresor == Degradation.Eficiencia(Degradation.Uniform(-0.03, 0.02, d.eta))
    ensures r.Some? ==>
      var res := Cycle.Solve(props, Parametros(run, i, j, e)).value;
      && r.value.cop == res.scalar.cop
      && r.value.tempDescargaC == res.scalar.dischargeC
      && r.value.trabajoKW == res.scalar.workKW
      && r.value.calorExtraidoKW == res.scalar.heatKW
      && r.value.calidadEvap == res.scalar.quality
    ensures r.Some? && i < TotalPuntos && Degradation.UnitDraw(run.sorteos(i, j).apertura) ==>
      Degradation.DeltaTCondBase <= r.value.deltaTCondC < 23.0 * 1.7
    ensures r.Some? && Degradation.UnitDraw(run.sorteos(i, j).eta) ==>
      0.72 <= r.value.etaCompresor < 0.77
    ensures r.Some? && Degradation.UnitDraw(run.sorteos(i, j).interior) ==>
      e.interiorC as real - 0.5 <= r.value.tInteriorC < e.interiorC as real + 0.5
  {
    var d := run.sorteos(i, j);
    var p := Parametros(run, i, j, e);
    match Cycle.Solve(props, p)
    case Failure(_) => None
    case Success(res) =>
      var tInterior := e.interiorC as real + Degradation.Uniform(-0.5, 0.5, d.interior);
      Some(Registro(
        Fecha(run, i), e.id, p.ambientC, tInterior, p.condDeltaT, p.eta,
        res.scalar.cop, res.scalar.dischargeC, res.scalar.workKW, res.scalar.heatKW,
        res.scalar.quality, Classifier.Classify(p.condDeltaT, res.scalar.cop)))
  }

  /** The record producer of a run over the rooms `units`: the record, if
      any, of tick `i` and room `k`. */
  function Producer(props: PropsSI, run: Run, units: seq<Equipment>): (nat, nat) -> Option<Registro>
  {
    (i: nat, k: nat) => if k < |units| then RegistroDe(props, run, i, k, units[k]) else None
  }

  /** An optional value as a sequence of length at most one. */
  function AsSeq<T>(r: Option<T>): seq<T>
  {
    if r.Some? then [r.value] else []
  }

  /** The outputs of tick `i` for the first `j` rooms, in room order, with the
      failed ones dropped. */
  function Tick<T>(f: (nat, nat) -> Option<T>, i: nat, j: nat): (rs: seq<T>)
    ensures |rs| <= j
  {
    if j == 0 then [] else Tick(f, i, j - 1) + AsSeq(f(i, j - 1))
  }

  /** The outputs of the first `n` ticks over `m` rooms, tick after tick. */
  function Grid<T>(f: (nat, nat) -> Option<T>, m: nat, n: nat): seq<T>
  {
    if n == 0 then [] else Grid(f, m, n - 1) + Tick(f, n - 1, m)
  }

  /** The grid of `n` ticks over `m` rooms holds at most `n * m` outputs. */
  lemma {:induction false} GridBound<T>(f: (nat, nat) -> Option<T>, m: nat, n: nat)
    ensures |Grid(f, m, n)| <= n * m
  {
    if n > 0 {
      GridBound(f, m, n - 1);
      assert (n - 1) * m + m == n * m;
    }
  }

  /** The generator's nested loop over a producer: for every tick and every
      room in order, append the room's output unless it failed. */
  method Collect<T>(f: (nat, nat) -> Option<T>, m: nat, n: nat) returns (rs: seq<T>)
    ensures rs == Grid(f, m, n)
    ensures |rs| <= n * m
  {
    rs := [];
    var i := 0;
    while i < n
      invariant 0 <= i <= n
      invariant rs == Grid(f, m, i)
    {
      var j := 0;
      while j < m
        invariant 0 <= j <= m
        invariant rs == Grid(f, m, i) + Tick(f, i, j)
      {
        var r := f(i, j);
        if r.Some? {
          rs := rs + [r.value];
        }
        j := j + 1;
      }
      i := i + 1;
    }
    GridBound(f, m, n);
  }

  /** The generator run: the records of every tick of the grid for the
      rooms `units`, skipping failed solves. */
  method GenerarDatos(props: PropsSI, run: Run, units: seq<Equipment>) returns (registros: seq<Registro>)
    ensures registros == Grid(Producer(props, run, units), |units|, TotalPuntos)
    ensures |registros| <= TotalPuntos * |units|
  {
    registros := Collect(Producer(props, run, units), |units|, TotalPuntos);
  }

  /** The room that produced an output of a tick. */
  lemma {:induction false} TickOrigin<T>(f: (nat, nat) -> Option<T>, i: nat, j: nat, r: T) returns (k: nat)
    requires r in Tick(f, i, j)
    ensures k < j && f(i, k) == Some(r)
  {
    var prev := Tick(f, i, j - 1);
    assert Tick(f, i, j) == prev + AsSeq(f(i, j - 1));
    if r in prev {
      k := TickOrigin(f, i, j - 1, r);
    } else {
      k := j - 1;
    }
  }

  /** The output of each of a tick's first `j` rooms is in the tick. */
  lemma {:induction false} TickContains<T>(f: (nat, nat) -> Option<T>, i: nat, j: nat, k: nat)
    requires k < j && f(i, k).Some?
    ensures f(i, k).value in Tick(f, i, j)
  {
    assert Tick(f, i, j) == Tick(f, i, j - 1) + AsSeq(f(i, j - 1));
    if k < j - 1 {
      TickContains(f, i, j - 1, k);
    }
  }

  /** An output belongs to a tick exactly when one of the tick's first `j`
      rooms produced it. */
  lemma TickMembership<T>(f: (nat, nat) -> Option<T>, i: nat, j: nat, r: T)
    ensures r in Tick(f, i, j) <==> exists k: nat :: k < j && f(i, k) == Some(r)
  {
    if r in Tick(f, i, j) {
      var k := TickOrigin(f, i, j, r);
    }
    if exists k: nat :: k < j && f(i, k) == Some(r) {
      var k: nat :| k < j && f(i, k) == Some(r);
      TickContains(f, i, j, k);
    }
  }

  /** The tick and room that produced an output of the grid. */
  lemma {:induction false} GridOrigin<T>(f: (nat, nat) -> Option<T>, m: nat, n: nat, r: T) returns (i: nat, k: nat)
    requires r in Grid(f, m, n)
    ensures i < n && k < m && f(i, k) == Some(r)
  {
    var prev, tick := Grid(f, m, n - 1), Tick(f, n - 1, m);
    assert Grid(f, m, n) == prev + tick;
    if r in prev {
      i, k := GridOrigin(f, m, n - 1, r);
    } else {
      assert r in tick;
      i := n - 1;
      k := TickOrigin(f, n - 1, m, r);
    }
  }

  /** The output of every room at each of the first `n` ticks is in the
      grid. */
  lemma {:induction false} GridContains<T>(f: (nat, nat) -> Option<T>, m: nat, n: nat, i: nat, k: nat)
    requires i < n && k < m && f(i, k).Some?
    ensures f(i, k).value in Grid(f, m, n)
  {
    var prev, tick := Grid(f, m, n - 1), Tick(f, n - 1, m);
    assert Grid(f, m, n) == prev + tick;
    if i < n - 1 {
      GridContains(f, m, n - 1, i, k);
      assert f(i, k).value in prev;
    } else {
      TickContains(f, i, m, k);
      assert f(i, k).value in tick;
    }
  }

  /** An output belongs to the grid of the first `n` ticks exactly when some
      room produced it at one of those ticks: nothing is invented and only
      failures are dropped. */
  lemma GridMembership<T>(f: (nat, nat) -> Option<T>, m: nat, n: nat, r: T)
    ensures r in Grid(f, m, n) <==> exists i: nat, k: nat :: i < n && k < m && f(i, k) == Some(r)
  {
    if r in Grid(f, m, n) {
      var i, k := GridOrigin(f, m, n, r);
    }
    if exists i: nat, k: nat :: i < n && k < m && f(i, k) == Some(r) {
      var i: nat, k: nat :| i < n && k < m && f(i, k) == Some(r);
      GridContains(f, m, n, i, k);
    }
  }

  /** If every output of tick `i` carries the key `i`, an output of the
      grid of `n` ticks has a key below `n`, and one of tick `n - 1` has key
      `n - 1`. */
  lemma GridKey<T>(f: (nat, nat) -> Option<T>, key: T -> int, m: nat, n: nat, r: T)
    requires forall i: nat, k: nat :: f(i, k).Some? ==> key(f(i, k).value) == i
    ensures r in Grid(f, m, n) ==> 0 <= key(r) < n
    ensures 0 < n && r in Tick(f, n - 1, m) ==> key(r) == n - 1
  {
    if r in Grid(f, m, n) {
      var i, k := GridOrigin(f, m, n, r);
      assert f(i, k).value == r;
    }
    if 0 < n && r in Tick(f, n - 1, m) {
      var k := TickOrigin(f, n - 1, m, r);
      assert f(n - 1, k).value == r;
    }
  }

  /** If every output of tick `i` carries the key `i`, the grid lists its
      outputs in non-decreasing key order. */
  lemma {:induction false} GridOrdered<T>(f: (nat, nat) -> Option<T>, key: T -> int, m: nat, n: nat, a: nat, b: nat)
    requires forall i: nat, k: nat :: f(i, k).Some? ==> key(f(i, k).value) == i
    requires a < b < |Grid(f, m, n)|
    ensures key(Grid(f, m, n)[a]) <= key(Grid(f, m, n)[b])
  {
    var prev := Grid(f, m, n - 1);
    var tick := Tick(f, n - 1, m);
    var rs := prev + tick;
    assert rs == Grid(f, m, n);
    if b >= |prev| {
      assert rs[b] == tick[b - |prev|];
      GridKey(f, key, m, n, rs[b]);
      if a >= |prev| {
        assert rs[a] == tick[a - |prev|];
        GridKey(f, key, m, n, rs[a]);
      } else {
        assert rs[a] == prev[a];
        GridKey(f, key, m, n - 1, rs[a]);
      }
    } else {
      assert rs[a] == prev[a] && rs[b] == prev[b];
      GridOrdered(f, key, m, n - 1, a, b);
    }
  }

  /** When no room fails at tick `i`, the tick lists exactly one output per
      room, in room order. */
  lemma {:induction false} TickComplete<T>(f: (nat, nat) -> Option<T>, i: nat, j: nat)
    requires forall k :: 0 <= k < j ==> f(i, k).Some?
    ensures var rs := Tick(f, i, j);
      |rs| == j && forall k :: 0 <= k < j ==> Some(rs[k]) == f(i, k)
  {
    if j > 0 {
      TickComplete(f, i, j - 1);
    }
  }

  /** When nothing fails, the grid holds exactly one output per tick and
      room. */
  lemma {:induction false} GridLength<T>(f: (nat, nat) -> Option<T>, m: nat, n: nat)
    requires forall i: nat, k: nat :: i < n && k < m ==> f(i, k).Some?
    ensures |Grid(f, m, n)| == n * m
  {
    if n > 0 {
      GridLength(f, m, n - 1);
      TickComplete(f, n - 1, m);
      assert (n - 1) * m + m == n * m;
    }
  }

  /** Index arithmetic of the tick-major layout: a slot of an earlier tick
      lies before the first slot of tick `t`. */
  lemma EarlierTickIndex(m: nat, t: nat, i: nat, k: nat)
    requires i < t && k < m
    ensures i * m + k < t * m
  {
    var d: nat := t - i - 1;
    assert t * m == i * m + m + d * m;
  }

  /** When nothing fails, the grid is tick-major: the output of tick `i` and
      room `k` sits at index `i * m + k`. */
  lemma {:induction false} GridComplete<T>(f: (nat, nat) -> Option<T>, m: nat, n: nat, i: nat, k: nat)
    requires forall i: nat, k: nat :: i < n && k < m ==> f(i, k).Some?
    requires i < n && k < m
    ensures i * m + k < |Grid(f, m, n)|
    ensures Some(Grid(f, m, n)[i * m + k]) == f(i, k)
  {
    GridLength(f, m, n - 1);
    TickComplete(f, n - 1, m);
    var prev := Grid(f, m, n - 1);
    var tick := Tick(f, n - 1, m);
    assert Grid(f, m, n) == prev + tick;
    assert |prev| == (n - 1) * m;
    if i < n - 1 {
      EarlierTickIndex(m, n - 1, i, k);
      GridComplete(f, m, n - 1, i, k);
    } else {
      assert i * m == (n - 1) * m;
      assert (prev + tick)[i * m + k] == tick[k];
    }
  }

  /** The records of the first `n` ticks. */
  function Registros(props: PropsSI, run: Run, units: seq<Equipment>, n: nat): seq<Registro>
  {
    Grid(Producer(props, run, units), |units|, n)
  }

  /** Every record comes from some tick and room: it carries that tick's
      instant and ambient temperature, and the identifier of a configured
      room. */
  lemma RegistroOrigin(props: PropsSI, run: Run, units: seq<Equipment>, n: nat, r: Registro) returns (i: nat, k: nat)
    requires r in Registros(props, run, units, n)
    ensures i < n && k < |units| && RegistroDe(props, run, i, k, units[k]) == Some(r)
    ensures run.inicio <= r.timestamp < Fecha(run, n)
    ensures r.tAmbienteC == TAmbiente(run, r.timestamp - run.inicio)
  {
    var f := Producer(props, run, units);
    i, k := GridOrigin(f, |units|, n, r);
    assert f(i, k) == RegistroDe(props, run, i, k, units[k]);
  }

  /** The tick facts of a record alone: its instant lies in the horizon and
      its ambient temperature is the one of that instant's tick. */
  lemma RegistroInstante(props: PropsSI, run: Run, units: seq<Equipment>, n: nat, r: Registro)
    requires r in Registros(props, run, units, n)
    ensures run.inicio <= r.timestamp < Fecha(run, n)
    ensures r.tAmbienteC == TAmbiente(run, r.timestamp - run.inicio)
  {
    var i, k := RegistroOrigin(props, run, units, n, r);
  }

  /** The output is in chronological order. */
  lemma RegistrosChronological(props: PropsSI, run: Run, units: seq<Equipment>, n: nat, a: nat, b: nat)
    requires a < b < |Registros(props, run, units, n)|
    ensures Registros(props, run, units, n)[a].timestamp <= Registros(props, run, units, n)[b].timestamp
  {
    var f := Producer(props, run, units);
    var key := (r: Registro) => r.timestamp - run.inicio;
    forall i: nat, k: nat | f(i, k).Some?
      ensures key(f(i, k).value) == i
    {
      assert k < |units| && RegistroDe(props, run, i, k, units[k]) == f(i, k);
    }
    GridOrdered(f, key, |units|, n, a, b);
  }

  /** Records with the same timestamp share one ambient temperature: it is
      computed once per tick, before the room loop. */
  lemma SameTickSameAmbient(props: PropsSI, run: Run, units: seq<Equipment>, n: nat, r1: Registro, r2: Registro)
    requires r1 in Registros(props, run, units, n) && r2 in Registros(props, run, units, n)
    requires r1.timestamp == r2.timestamp
    ensures r1.tAmbienteC == r2.tAmbienteC
  {
    RegistroInstante(props, run, units, n, r1);
    RegistroInstante(props, run, units, n, r2);
  }

  /** Draws from `random.random()` (every component in [0, 1)). */
  ghost predicate DrawsValid(run: Run)
  {
    forall i: nat, j: nat ::
      var d := run.sorteos(i, j);
      Degradation.UnitDraw(d.puerta) && Degradation.UnitDraw(d.apertura)
      && Degradation.UnitDraw(d.eta) && Degradation.UnitDraw(d.interior)
  }

  /** With genuine unit draws, every record of the seven-day grid has a
      condenser temperature difference of at least the 15 K base and below
      23 K inflated by the last-day fouling, an efficiency inside
      [0.72, 0.77), an interior reading within half a degree of its room's set
      point, and a state that agrees with its own temperature difference and
      COP. */
  lemma RegistroAcotado(props: PropsSI, run: Run, units: seq<Equipment>, n: nat, r: Registro)
    requires n <= TotalPuntos
    requires DrawsValid(run)
    requires r in Registros(props, run, units, n)
    ensures Degradation.DeltaTCondBase <= r.deltaTCondC < 23.0 * 1.7
    ensures 0.72 <= r.etaCompresor < 0.77
    ensures r.estado == Classifier.Classify(r.deltaTCondC, r.cop)
    ensures exists k :: (0 <= k < |units| && units[k].id == r.idEquipo &&
      units[k].interiorC as real - 0.5 <= r.tInteriorC < units[k].interiorC as real + 0.5)
  {
    var i, k := RegistroOrigin(props, run, units, n, r);
    var d := run.sorteos(i, k);
    assert Degradation.UnitDraw(d.apertura) && Degradation.UnitDraw(d.eta) && Degradation.UnitDraw(d.interior);
  }
}

=== FILE: plant.dfy ===
/** The configured plant seen through the bot: every configured cold room
    gets a label on its drill-down button and in the cost detail, and a
    name in the critical-units list. */
module Plant {
  import opened Fallible
  import opened Settings
  import PyStr
  import Callbacks
  import Costs

  /** The first configured room shows its product on the drill-down button
      and in the per-unit cost detail, and its product code in the critical
      list, so none of these lookups raises for it. */
  lemma CamaraCarnesNamed()
    ensures Callbacks.NombreVisual(Equipos[0].id) == Some("🥩 Carnes")
    ensures Costs.NombreCritico(Equipos[0].id) == Some("CARNES")
    ensures Costs.NombreDetalle(Equipos[0].id) == Some("🥩 Carnes")
  {
    RoomNamed(Equipos[0].id, "01", "CARNES", "🥩 Carnes");
  }

  /** The second configured room shows its product on the drill-down button
      and in the per-unit cost detail, and its product code in the critical
      list, so none of these lookups raises for it. */
  lemma CamaraLacteosNamed()
    ensures Callbacks.NombreVisual(Equipos[1].id) == Some("🥛 Lácteos")
    ensures Costs.NombreCritico(Equipos[1].id) == Some("LACTEOS")
    ensures Costs.NombreDetalle(Equipos[1].id) == Some("🥛 Lácteos")
  {
    RoomNamed(Equipos[1].id, "02", "LACTEOS", "🥛 Lácteos");
  }

  /** The third configured room shows its product on the drill-down button
      and in the per-unit cost detail, and its product code in the critical
      list, so none of these lookups raises for it. */
  lemma CamaraVerdurasNamed()
    ensures Callbacks.NombreVisual(Equipos[2].id) == Some("🥦 Verduras")
    ensures Costs.NombreCritico(Equipos[2].id) == Some("VERDURAS")
    ensures Costs.NombreDetalle(Equipos[2].id) == Some("🥦 Verduras")
  {
    RoomNamed(Equipos[2].id, "03", "VERDURAS", "🥦 Verduras");
  }

  /** A room `CAMARA_<nn>_<product>` of a known product gets that product's
      label on its button and in the cost detail, and is listed under its
      product code. */
  lemma RoomNamed(id: string, nn: string, product: string, etiqueta: string)
    requires id == "CAMARA_" + nn + "_" + product
    requires |nn| == 2 && forall c :: c in nn ==> '0' <= c <= '9'
    requires
      || (product == "CARNES" && etiqueta == "🥩 Carnes")
      || (product == "LACTEOS" && etiqueta == "🥛 Lácteos")
      || (product == "VERDURAS" && etiqueta == "🥦 Verduras")
    ensures Callbacks.NombreVisual(id) == Some(etiqueta)
    ensures Costs.NombreCritico(id) == Some(product)
    ensures Costs.NombreDetalle(id) == Some(etiqueta)
  {
    RoomLabel(id, nn, product, etiqueta);
    assert '_' !in nn && '_' !in product;
    RoomCode(id, nn, product);
  }

  /** A room `CAMARA_<nn>_<product>` is listed under its product code. */
  lemma RoomCode(id: string, nn: string, product: string)
    requires id == "CAMARA_" + nn + "_" + product
    requires '_' !in nn && '_' !in product
    ensures Costs.NombreCritico(id) == Some(product)
  {
    Costs.NombreCriticoDePlanta(nn, product);
  }

  /** A room `CAMARA_<nn>_<product>` of a known product gets that product's
      label on its button and in the cost detail. */
  lemma RoomLabel(id: string, nn: string, product: string, etiqueta: string)
    requires id == "CAMARA_" + nn + "_" + product
    requires |nn| == 2 && forall c :: c in nn ==> '0' <= c <= '9'
    requires
      || (product == "CARNES" && etiqueta == "🥩 Carnes")
      || (product == "LACTEOS" && etiqueta == "🥛 Lácteos")
      || (product == "VERDURAS" && etiqueta == "🥦 Verduras")
    ensures Callbacks.NombreVisual(id) == Some(etiqueta)
    ensures Costs.NombreDetalle(id) == Some(etiqueta)
  {
    assert id[10..] == product && id[10..][..|product|] == product;
    PyStr.ContainsAt(id, product, 10);
    assert 'N' !in nn && 'L' !in nn;
    if product == "LACTEOS" {
      assert 'N' !in id;
      PyStr.MissingCharNotContained(id, "CARNES", 'N');
    } else if product == "VERDURAS" {
      assert 'N' !in id && 'L' !in id;
      PyStr.MissingCharNotContained(id, "CARNES", 'N');
      PyStr.MissingCharNotContained(id, "LACTEOS", 'L');
    }
  }
}

=== FILE: pystr.dfy ===
/** The few Python `str` operations the dashboard relies on, with Python's
    semantics: `startswith`, the `in` substring test, `find` of one character,
    `split` on a one-character separator with an optional `maxsplit`, `join`
    and `replace`. */
module PyStr {

  /** `s.startswith(prefix)` */
  predicate StartsWith(s: string, prefix: string) {
    |prefix| <= |s| && s[..|prefix|] == prefix
  }

  /** `sub in s` */
  predicate Contains(s: string, sub: string)
    decreases |s|
  {
    StartsWith(s, sub) || (|s| > 0 && Contains(s[1..], sub))
  }

  /** `s.find(c)`: the first index holding `c`, or -1 when there is none. */
  function Find(s: string, c: char): (k: int)
    ensures -1 <= k < |s|
    ensures k == -1 <==> c !in s
    ensures 0 <= k ==> s[k] == c && c !in s[..k]
  {
    if |s| == 0 then -1
    else if s[0] == c then 0
    else
      var k := Find(s[1..], c);
      if k == -1 then -1
      else
        assert s[..k + 1] == [s[0]] + s[1..][..k];
        k + 1
  }

  /** `sep.join(parts)` */
  function Join(parts: seq<string>, sep: char): string
  {
    if |parts| == 0 then ""
    else if |parts| == 1 then parts[0]
    else parts[0] + [sep] + Join(parts[1..], sep)
  }

  /** `s.split(sep, maxsplit)`: cut `s` at its first `maxsplit` occurrences of
      `sep`, or at every occurrence when `maxsplit` is negative (Python's
      default of -1). */
  function Split(s: string, sep: char, maxsplit: int): (parts: seq<string>)
    ensures |parts| >= 1
    ensures Join(parts, sep) == s
    ensures 0 <= maxsplit ==> |parts| <= maxsplit + 1
    ensures forall k :: 0 <= k < |parts| - 1 ==> sep !in parts[k]
    ensures (maxsplit < 0 || |parts| <= maxsplit) ==> sep !in parts[|parts| - 1]
    decreases |s|
  {
    var k := Find(s, sep);
    if maxsplit == 0 || k < 0 then [s]
    else
      var more := if maxsplit < 0 then maxsplit else maxsplit - 1;
      var rest := Split(s[k + 1..], sep, more);
      SplitStep(s, k, sep, rest);
      [s[..k]] + rest
  }

  /** One cut of `split`: the part before the first separator, put in front of
      the parts of what follows it, joins back to the whole string and keeps
      every part but the last free of the separator. */
  lemma {:induction false} SplitStep(s: string, k: int, sep: char, rest: seq<string>)
    requires 0 <= k < |s| && s[k] == sep && sep !in s[..k]
    requires |rest| >= 1 && Join(rest, sep) == s[k + 1..]
    requires forall m :: 0 <= m < |rest| - 1 ==> sep !in rest[m]
    ensures |[s[..k]] + rest| == |rest| + 1
    ensures ([s[..k]] + rest)[|rest|] == rest[|rest| - 1]
    ensures Join([s[..k]] + rest, sep) == s
    ensures forall m :: 0 <= m < |rest| ==> sep !in ([s[..k]] + rest)[m]
  {
    var parts := [s[..k]] + rest;
    assert parts[1..] == rest;
    assert s == s[..k] + [sep] + s[k + 1..];
    forall m | 0 <= m < |rest|
      ensures sep !in parts[m]
    {
      if m > 0 {
        assert parts[m] == rest[m - 1];
      }
    }
  }

  /** `s.replace(pat, rep)`: every non-overlapping occurrence of `pat`, scanned
      left to right, becomes `rep`; an empty `pat` inserts `rep` between all
      characters and at both ends. */
  function Replace(s: string, pat: string, rep: string): (r: string)
    ensures |pat| > 0 && !Contains(s, pat) ==> r == s
    ensures |pat| > 0 && |rep| <= |pat| ==> |r| <= |s|
    decreases |s|
  {
    if |pat| == 0 then
      if |s| == 0 then rep else rep + [s[0]] + Replace(s[1..], pat, rep)
    else if StartsWith(s, pat) then rep + Replace(s[|pat|..], pat, rep)
    else if |s| == 0 then s
    else [s[0]] + Replace(s[1..], pat, rep)
  }

  /** Replacing a non-empty pattern by itself changes nothing. */
  lemma {:induction false} ReplaceSelf(s: string, pat: string)
    requires |pat| > 0
    ensures Replace(s, pat, pat) == s
    decreases |s|
  {
    if StartsWith(s, pat) {
      ReplaceSelf(s[|pat|..], pat);
      assert s == pat + s[|pat|..];
    } else if |s| > 0 {
      ReplaceSelf(s[1..], pat);
      assert s == [s[0]] + s[1..];
    }
  }

  /** Whether a string starts with `pat` is decided by any prefix of it at
      least as long as `pat`. */
  lemma StartsWithPrefix(x: string, y: string, pat: string)
    requires |pat| <= |x| <= |y| && y[..|x|] == x
    ensures StartsWith(x, pat) <==> StartsWith(y, pat)
  {
    assert y[..|pat|] == x[..|pat|];
  }

  /** When `pat` does not occur before the end of `a + pat`, neither `a`
      nor `a + pat + b` starts with it, and the same holds one character on. */
  lemma NoEarlierOccurrence(a: string, pat: string, b: string)
    requires |pat| > 0 && |a| > 0
    requires !Contains(a + pat[..|pat| - 1], pat)
    ensures !StartsWith(a + pat + b, pat) && !StartsWith(a, pat)
    ensures !Contains(a[1..] + pat[..|pat| - 1], pat)
  {
    var t := a + pat[..|pat| - 1];
    assert t[1..] == a[1..] + pat[..|pat| - 1];
    assert (a + pat + b)[..|t|] == t;
    StartsWithPrefix(t, a + pat + b, pat);
    if |pat| <= |a| {
      assert t[..|a|] == a;
      StartsWithPrefix(a, t, pat);
    }
  }

  /** One occurrence of `pat`, the first one, splits the replacement: what
      precedes it is replaced on its own, the occurrence becomes `rep`, and
      the rest is replaced on its own. */
  lemma {:induction false} ReplaceSplice(a: string, pat: string, b: string, rep: string)
    requires |pat| > 0
    requires !Contains(a + pat[..|pat| - 1], pat)
    ensures Replace(a + pat + b, pat, rep) == Replace(a, pat, rep) + rep + Replace(b, pat, rep)
    decreases |a|
  {
    if |a| == 0 {
      assert a + pat + b == pat + b && (pat + b)[|pat|..] == b;
      assert Replace(a, pat, rep) == [];
    } else {
      NoEarlierOccurrence(a, pat, b);
      ReplaceSplice(a[1..], pat, b, rep);
      SpliceStep(a, pat, b, rep);
    }
  }

  /** The inductive step of `ReplaceSplice`: the first character of `a` is
      copied through. */
  lemma SpliceStep(a: string, pat: string, b: string, rep: string)
    requires |pat| > 0 && |a| > 0
    requires !StartsWith(a + pat + b, pat) && !StartsWith(a, pat)
    requires Replace(a[1..] + pat + b, pat, rep) == Replace(a[1..], pat, rep) + rep + Replace(b, pat, rep)
    ensures Replace(a + pat + b, pat, rep) == Replace(a, pat, rep) + rep + Replace(b, pat, rep)
  {
    SpliceTail(a, pat, b);
    ReplaceCopiesHead(a + pat + b, pat, rep);
    ReplaceCopiesHead(a, pat, rep);
    ConsAssoc(a[0], Replace(a[1..], pat, rep), rep, Replace(b, pat, rep));
  }

  /** Dropping the first character of `a + pat + b` drops it from `a`. */
  lemma SpliceTail(a: string, pat: string, b: string)
    requires |a| > 0
    ensures (a + pat + b)[0] == a[0] && (a + pat + b)[1..] == a[1..] + pat + b
  {
  }

  /** Concatenation regroups around a leading character. */
  lemma ConsAssoc(c: char, x: string, m: string, y: string)
    ensures [c] + (x + m + y) == ([c] + x) + m + y
  {
  }

  /** A string that does not start with a non-empty `pat` keeps its first
      character. */
  lemma ReplaceCopiesHead(s: string, pat: string, rep: string)
    requires |pat| > 0 && |s| > 0 && !StartsWith(s, pat)
    ensures Replace(s, pat, rep) == [s[0]] + Replace(s[1..], pat, rep)
  {
  }

  /** Locating a separator behind a separator-free prefix. */
  lemma {:induction false} FindAfterPrefix(a: string, c: char, b: string)
    requires c !in a
    ensures Find(a + [c] + b, c) == |a|
  {
    var s := a + [c] + b;
    assert s[|a|] == c;
    assert s[..|a|] == a;
  }

  /** `split` undoes `join` when no part holds the separator: the two are
      inverse on separator-free parts (the other direction is Split's own
      `Join(parts, sep) == s`). */
  lemma {:induction false} SplitJoin(parts: seq<string>, sep: char)
    requires |parts| >= 1
    requires forall k :: 0 <= k < |parts| ==> sep !in parts[k]
    ensures Split(Join(parts, sep), sep, -1) == parts
    decreases |parts|
  {
    if |parts| == 1 {
      assert Find(parts[0], sep) == -1;
    } else {
      var rest := Join(parts[1..], sep);
      var s := parts[0] + [sep] + rest;
      assert Join(parts, sep) == s;
      FindAfterPrefix(parts[0], sep, rest);
      assert s[|parts[0]| + 1..] == rest;
      assert s[..|parts[0]|] == parts[0];
      assert Split(s, sep, -1) == [parts[0]] + Split(rest, sep, -1);
      SplitJoin(parts[1..], sep);
      assert [parts[0]] + parts[1..] == parts;
    }
  }

  /** A pattern that starts at some position of `s` occurs in `s`. */
  lemma {:induction false} ContainsAt(s: string, sub: string, k: nat)
    requires k <= |s| && StartsWith(s[k..], sub)
    ensures Contains(s, sub)
    decreases k
  {
    if k == 0 {
      assert s[k..] == s;
    } else {
      assert s[1..][k - 1..] == s[k..];
      ContainsAt(s[1..], sub, k - 1);
    }
  }

  /** A pattern holding a character that `s` lacks never occurs in `s`. */
  lemma {:induction false} MissingCharNotContained(s: string, sub: string, c: char)
    requires c in sub && c !in s
    ensures !Contains(s, sub)
    decreases |s|
  {
    if |s| > 0 {
      assert forall x :: x in s[1..] ==> x in s;
      MissingCharNotContained(s[1..], sub, c);
    }
  }
}

=== FILE: refrigerant.dfy ===
/** The equation-of-state library the cycle solver consults, reduced to its
    call shape. `PropsSI(output, name1, value1, name2, value2, fluid)` resolves
    one property of a fluid from two others; `None` stands for a query the
    library rejects (outside the phase envelope, near the critical point),
    which in the source raises an exception. The model knows nothing else
    about the library: every property of the solver is proved for EVERY
    function of this type. */
module Refrigerant {
  import opened Fallible

  /** The property names used in queries: pressure [Pa], temperature [K],
      specific enthalpy [J/kg], specific entropy [J/(kg K)], vapour quality. */
  datatype Prop = P | T | H | S | Q

  type PropsSI = (Prop, Prop, real, Prop, real, string) -> Option<real>

  /** The only refrigerant the solver asks about. */
  const Fluid: string := "R134a"

  /** The offset of the Celsius scale: 0 degC is 273.15 K. */
  const KelvinOffset: real := 273.15

  function Kelvin(celsius: real): (kelvin: real)
    ensures kelvin > celsius
    ensures Celsius(kelvin) == celsius
  {
    celsius + KelvinOffset
  }

  function Celsius(kelvin: real): (celsius: real)
    ensures celsius < kelvin
  {
    kelvin - KelvinOffset
  }
}

=== FILE: settings.dfy ===
/** The fixed configuration of the telemetry generator: a seven-day horizon
    sampled every hour, and the three cold rooms of the plant in their
    configured order. */
module Settings {

  const DiasSimulacion: nat := 7
  const FrecuenciaHoras: nat := 1
  const HorasPorDia: nat := 24

  /** Number of ticks of the time grid. */
  const TotalPuntos: nat := DiasSimulacion * HorasPorDia / FrecuenciaHoras

  /** A cold room: its identifier, interior set point [degC] and nominal
      refrigerant mass flow [kg/s]. */
  datatype Equipment = Equipment(id: string, interiorC: int, massFlow: real)

  const Equipos: seq<Equipment> := [
    Equipment("CAMARA_01_CARNES", -18, 0.12),
    Equipment("CAMARA_02_LACTEOS", 4, 0.08),
    Equipment("CAMARA_03_VERDURAS", 4, 0.08)
  ]
}
